=== FILE: README.md ===
# BigQuery SQL backend for Sigma rules: a Dafny model

This project models the core of the `bq-sql` backend (`tools/sigma/backends/bq-sql.py`). The backend turns a parsed Sigma rule into one BigQuery-style `SELECT` statement. The model has eight modules:

- **Wrappers** (`wrappers.dfy`): `Option` and `Result`. A raised Python exception becomes an `Err` carrying a `Tree.Error` constructor. There is one constructor per exception message. The two raises of the search-logic error (lines 286 and 306) share `SearchLogic`, and the raise at line 135 has none, because its branch cannot be reached (see "## Left out").
- **Text** (`text.dfy`): the Python string built-ins the backend relies on. These are `str.join` and `str.split`, the `in` substring test, `str(int)`, and `repr(str)`. The last is used when `str(list)` renders a list value. Each comes with a round trip or a reference definition.
- **Escape** (`escape.dfy`): `cleanValue`, the five regular-expression substitutions, applied in the source's order.
  - Steps 1, 4 and 5 (lone backslashes, `*` and `?`) are scanners over *chunks*. A chunk is a maximal run of backslashes plus the one character after it.
  - Each of these scanners also has a position-by-position reference definition that follows how `re.sub` scans. A lemma proves the scanner and the reference agree.
  - Steps 2 and 3 (`_` and `%`) have no lookaround, so each is a plain scan one character at a time (`EscapeChar`), with its inverse.
  - Also here: the wildcard test of line 117 (`HasWildcard`).
- **Tree** (`tree.dfy`): rule values (`Str`, `Int`, `List`), the condition tree (`And`, `Or`, `Not`, `Sub`, `MapItem`, `NullValue`, `NotNullValue`, `Bare`), `str()` and `repr()` of values, and the errors.
- **Generator** (`generator.dfy`): `generateNode` as a match on the tree, covering:
  - AND, OR, NOT and subexpression nodes;
  - lists, values, and the null and not-null tests;
  - the ordered shape choice of `generateMapItemNode`.
- **FtsGuard** (`fts_guard.dfy`): `_recursiveFtsSearch`, `_evaluateCondition` and `checkFTS`, with two reference predicates: one for the values the guard can see, one for the scans that raise.
  - In Sigma's parser the null and not-null tests are subclasses of the NOT condition. The backend reads them through NOT's `item` (lines 144 and 147).
  - So the `isinstance` test of line 292 sends a null test to `_evaluateCondition`, whose exact type test at line 285 then raises the logic error.
  - The parser module itself is not part of this model.
- **Aggregation** (`aggregation.dfy`): `generateAggregation`.
- **Query** (`query.dfy`): the remaining parts of query generation:
  - the backend options kept by `__init__`;
  - the field list of `generate`;
  - `_generateQueryWithFields`;
  - `generate` emitting the first condition group.

Some behaviours of the code are modelled as written and stated as lemmas:

- A lone backslash becomes **four** backslashes, not two.
- An even run of 2k backslashes before `*` or `?` collapses to a single pair. This happens because `\1` keeps only the last repetition of the group.
- The wildcard test also fires on an escaped `\_` or `\%`.
- The full-text guard does not look into an AND or OR placed directly inside another one.
- A null or not-null test inside the rule's parentheses makes the full-text guard raise its logic error, unless a value comes first in the same scan.
- `generate` returns after the **first** condition group.

Three behaviours are easy to misread, and the model follows the code in each:

- `generate` emits the first condition group, not the last, because it returns inside its loop (line 202).
- The value `["a", "b"]` takes the `IN` shape (`field IN ("a", "b")`). Its rendering has a comma, is in parentheses and shows no wildcard, so the first branch (line 119) wins.
- The comment on line 208 says lone backslashes are doubled, but the replacement of line 209 writes four.

## Model

| member | source | states |
|---|---|---|
| Text.JoinSplit | tools/sigma/backends/bq-sql.py:64-65 | splitting the `select` option on `,` and joining the pieces back with `,` gives the option text again |
| Text.SplitJoin | tools/sigma/backends/bq-sql.py:65 | splitting a `,`-join of comma-free pieces gives back exactly those pieces |
| Text.HasSubstringIff | tools/sigma/backends/bq-sql.py:121 | the `"LENGTH" in field` test holds exactly when the pattern occurs at some position of the field |
| Text.IntToStringRoundTrip | tools/sigma/backends/bq-sql.py:141 | `str(n)` of an integer is non-empty, starts with a minus sign exactly when `n` is negative, continues with digits that have no superfluous leading zero, and reads back as `n` |
| Text.ReprRoundTrip | tools/sigma/backends/bq-sql.py:122 | `repr` of a string, as `str(list)` writes list items, is a literal in matching quotes that reads back as the string |
| Escape.DoubleLoneMatchesRegex | tools/sigma/backends/bq-sql.py:209 | the step-1 scanner equals the regex's own scan: a backslash with no backslash before it and no backslash, `*` or `?` after it becomes four backslashes, everything else is kept |
| Escape.DoubleLoneQuadruples | tools/sigma/backends/bq-sql.py:208-209 | a lone backslash between clean context becomes four backslashes and the two sides are rewritten independently |
| Escape.DoubleLoneIdempotent | tools/sigma/backends/bq-sql.py:209 | applying step 1 twice is the same as applying it once |
| Escape.EscapeUnderscoreThenPercent | tools/sigma/backends/bq-sql.py:211-215 | escaping `_` and then `%` is the same as escaping both in one pass |
| Escape.EscapeCharRoundTrip | tools/sigma/backends/bq-sql.py:212 | removing the backslash placed before each `_` (or `%`) gives the text back |
| Escape.EscapeSqlWildcardsEscapes | tools/sigma/backends/bq-sql.py:211-215 | after steps 2 and 3 every `_` and every `%` has a backslash right before it |
| Escape.WildcardMatchIsPattern | tools/sigma/backends/bq-sql.py:218 | the match test at a position is exactly the pattern: no backslash before, some number of backslash pairs, then the rule wildcard |
| Escape.TranslateMatchesRegex | tools/sigma/backends/bq-sql.py:217-221 | the step-4/5 scanner equals `re.sub`'s scan, which replaces each match by the last pair (if any) and the SQL wildcard and skips past it |
| Escape.TranslateRun | tools/sigma/backends/bq-sql.py:217-221 | after clean context, m backslashes and the rule wildcard become the replacement when m is even (collapsing the run to at most one pair), and stay as they are when m is odd |
| Escape.TranslateIdempotent | tools/sigma/backends/bq-sql.py:218 | applying step 4 (or 5) twice is the same as applying it once |
| Escape.TranslateLeavesNoBareWildcard | tools/sigma/backends/bq-sql.py:217-221 | after step 4 no `*`, and after step 5 no `?`, is left without a backslash before it |
| Escape.CleanValueUntouched | tools/sigma/backends/bq-sql.py:204-222 | a value with none of `\ _ % * ?` is returned unchanged |
| Escape.CleanValuePlainText | tools/sigma/backends/bq-sql.py:211-215 | without backslashes and rule wildcards only `_` and `%` are escaped, and dropping those backslashes gives the value back |
| Escape.CleanValueEscapesUnderscore | tools/sigma/backends/bq-sql.py:211-221 | without `?` in the value, every `_` of the output has a backslash before it |
| Escape.CleanValueEscapesPercent | tools/sigma/backends/bq-sql.py:214-221 | without `*` in the value, every `%` of the output has a backslash before it |
| Escape.CleanValueNoBareRuleWildcards | tools/sigma/backends/bq-sql.py:217-221 | no `*` or `?` of the output lacks a backslash right before it |
| Escape.CleanValueSplit | tools/sigma/backends/bq-sql.py:204-222 | the escaper works independently on the two sides of a point after a non-backslash |
| Escape.CleanValueWildcardRun | tools/sigma/backends/bq-sql.py:204-222 | an even run before a rule wildcard turns into the replacement, and an odd run is kept together with its wildcard, whatever surrounds them |
| Escape.CleanValueOneRun | tools/sigma/backends/bq-sql.py:204-222 | a value that is just m backslashes and a rule wildcard becomes the replacement when m is even and is kept when m is odd |
| Escape.CleanValueLoneBackslash | tools/sigma/backends/bq-sql.py:209 | a lone backslash becomes four backslashes in the whole escaper, and the two sides are escaped independently |
| Escape.CleanValueHasWildcard | tools/sigma/backends/bq-sql.py:117 | the wildcard test finds something in the escaped value exactly when the value holds one of `\ _ % * ?` |
| Escape.CleanValuePlainWildcard | tools/sigma/backends/bq-sql.py:218-221 | between plain texts a bare `*`/`?` becomes `%`/`_` and an escaped one is kept |
| Escape.CleanValuePlainBackslash | tools/sigma/backends/bq-sql.py:208-209 | between plain texts a single backslash becomes four |
| Escape.CleanValuePlainCollapse | tools/sigma/backends/bq-sql.py:217-221 | between plain texts 2m backslashes (m >= 1) before a rule wildcard collapse to one pair |
| Generator.AndIsFold | tools/sigma/backends/bq-sql.py:77-83 | AND equals the left fold that drops absent children and joins the rest with ` AND ` in order; the first child error wins; no present child gives `None` |
| Generator.OrIsFold | tools/sigma/backends/bq-sql.py:85-91 | the same for OR with ` OR ` |
| Generator.WrapChild | tools/sigma/backends/bq-sql.py:93-105 | NOT and a subexpression pass an error or an absent child through; a present child gives `NOT child` and `(child)` |
| Generator.NullTemplates | tools/sigma/backends/bq-sql.py:143-147 | the not-null test renders as `field=*` and the null test as the same text behind a `-`; neither fails |
| Generator.GenerateValueOutcome | tools/sigma/backends/bq-sql.py:107-110 | rendering a value fails, with the list-item error, exactly when it is a list holding a list |
| Generator.GenerateOutcome | tools/sigma/backends/bq-sql.py:77-147 | the generator fails exactly on trees with an unrenderable value; it yields `None` exactly on trees built only from empty AND/OR, NOT and parentheses; any text it yields is non-empty |
| Generator.GenerateAllOutcome | tools/sigma/backends/bq-sql.py:78-79 | the children of AND/OR fail exactly when one is not well formed; nothing is present exactly when every child is vacuous |
| Generator.MapItemOutcome | tools/sigma/backends/bq-sql.py:112-129 | a field/value pair fails exactly when its value cannot be rendered, and otherwise yields a non-empty text |
| Generator.ValueNodeWildcard | tools/sigma/backends/bq-sql.py:117 | a rendered scalar shows a wildcard exactly when its text has one of `\ _ % * ?` |
| Generator.ListWildcard | tools/sigma/backends/bq-sql.py:107-117 | a rendered list shows a wildcard exactly when one of its items' texts has one of `\ _ % * ?` |
| Generator.ListComma | tools/sigma/backends/bq-sql.py:110 | a rendered list holds a comma exactly when it has two or more items, or an item's escaped text has a comma |
| Generator.MapItemScalar | tools/sigma/backends/bq-sql.py:112-129 | a string or integer never takes the IN shape: a LENGTH field gives `(field raw)`, otherwise a LIKE exactly when the text has one of `\ _ % * ?`, else an equality |
| Generator.MapItemInteger | tools/sigma/backends/bq-sql.py:125-129 | an integer is compared as its decimal digits in double quotes |
| Generator.MapItemList | tools/sigma/backends/bq-sql.py:117-138 | a list takes IN exactly when its rendering has a comma and no item is special; otherwise a LENGTH field gives `(field repr)`; otherwise one LIKE per item joined with OR |
| Generator.TwoPlainItemsTakeIn | tools/sigma/backends/bq-sql.py:119-120 | two plain list items always take the IN shape |
| FtsGuard.EvaluateFinds | tools/sigma/backends/bq-sql.py:283-298 | the in-order scan with its early return raises the logic error exactly when it reaches a null or not-null test (directly, through parentheses or through a NOT) before any value; otherwise it is true exactly when an item from the current one on exposes a value |
| FtsGuard.SubSearchFinds | tools/sigma/backends/bq-sql.py:308-311 | searching a subexpression body raises the logic error exactly when the body fails by the reference definition, and otherwise agrees with the reference definition of an exposed value |
| FtsGuard.FtsSearchFinds | tools/sigma/backends/bq-sql.py:300-311 | the search raises the logic error exactly on a top node that is not a value, a pair or a subexpression, or on a subexpression whose scan reaches a null test first; otherwise it reports exactly whether a value is exposed |
| FtsGuard.CheckFtsOutcome | tools/sigma/backends/bq-sql.py:257-259 | the guard accepts exactly the subexpressions and pairs that neither fail nor expose a value; an exposed value gives the full-text error, and any other top node or a failing subexpression gives the logic error |
| FtsGuard.BareBesideMapItem | tools/sigma/backends/bq-sql.py:294-297 | a value beside a pair under an OR is refused; the pair alone is accepted |
| FtsGuard.NullTestInScan | tools/sigma/backends/bq-sql.py:283-298 | a null test in the rule's parentheses gives the logic error, whether it comes before or after a field/value pair; a value earlier in the same scan returns first, giving the full-text error |
| FtsGuard.NestedJunctionBlindSpot | tools/sigma/backends/bq-sql.py:289-293 | an AND directly inside an AND hides its value from the guard; parentheses between them expose it |
| Aggregation.AggregateIdentity | tools/sigma/backends/bq-sql.py:225-226 | without an aggregation the table and the WHERE text come back unchanged |
| Aggregation.AggregateOutcome | tools/sigma/backends/bq-sql.py:228-252 | the translation fails exactly for a function outside the five (not implemented) and for MAX/MIN/SUM/AVG without a field (field missing); COUNT never fails |
| Aggregation.AggregateShape | tools/sigma/backends/bq-sql.py:234-250 | the derived table is exactly `(SELECT *,f(field) AS agg FROM table WHERE where GROUP BY g)` with a group field, and exactly the same text without ` GROUP BY g` otherwise, with `f(*)` when no field is given (prefix, suffix and length fix it); the filter is `agg <op> <value>` |
| Aggregation.CountByUser | tools/sigma/backends/bq-sql.py:234-250 | `count() by User > 5` gives the derived table `(SELECT *,count(*) AS agg FROM table WHERE where GROUP BY User)` and the filter `agg > 5` |
| Query.ConfigFromOptions | tools/sigma/backends/bq-sql.py:59-70 | selection is on exactly when the `selection` key is present; the table is the option or `<org>`; the select list is empty exactly when the option is absent or empty, and joins back to the option otherwise |
| Query.ResolveFields | tools/sigma/backends/bq-sql.py:159-184 | the field list is the mapped rule fields followed by the select fields, or `*` alone; it fails exactly when some mapping is neither a string nor a list |
| Query.GenerateRule | tools/sigma/backends/bq-sql.py:159-202 | a bad field mapping is the mapping error whether or not there is a condition group; with no group the result is otherwise `None`; with groups it is the query of the first group alone, with the field list when selection is on and `*` otherwise |
| Query.QueryOutcome | tools/sigma/backends/bq-sql.py:261-277 | a query fails exactly when the tree is malformed, the guard refuses it or the aggregation fails, in that order of priority |
| Query.QueryPlain | tools/sigma/backends/bq-sql.py:277 | without aggregation the query is exactly the select, table and time/type filter followed by the condition, or by `None` for a vacuous tree (prefix, suffix and length fix it) |
| Query.QueryAggregated | tools/sigma/backends/bq-sql.py:265-275 | with an aggregation the query is exactly `SELECT <fields> FROM ` followed by the whole derived table of the aggregation translator (its WHERE text is the generated condition, then the optional ` GROUP BY g)`), and then ` WHERE agg <op> <value>`; prefix, suffix and length fix it |
| Query.IntegerEqualityQuery | tools/sigma/backends/bq-sql.py:261-277 | a parenthesised `field: n` rule gives the full query with `(field = "n")` after the time/type filter |

## Left out

- Base-class dispatch: `generateNode`, `generateBefore` and `generateAfter` belong to the base class, which is not part of this model. Dispatch is a match on the tree, and the before and after texts are taken to be empty.
- Options: `applyOverrides` and the base options are not modelled. The `type1` option is parsed by `__init__` but never used, so it is left out.
- Field names: `fieldNameMapping` is the identity (lines 149-155). The mapping collaborator (line 164) is a parameter `resolve` that returns one field, several, or neither.
- `sourcetype` branch: the map-item branches at lines 130-135 cannot be reached. Every value is a str, an int or a list, and `mapListsSpecialHandling` is false, so line 125 always takes it.
- Exceptions: exceptions from collaborators are not modelled. This includes a `KeyError` raised inside the field-mapping loop, which the source swallows together with the missing `fields` key.
- `selection_enabled`: the source mutates this field across calls (lines 179-180). The model computes it per call, as the option or a non-empty select list.
- Aggregation condition: the comparison value is taken as text that is already formatted.
- Non-ASCII in `repr`: non-ASCII characters are not escaped. The model treats every character from U+0080 up as printable, whereas Python escapes the non-printable ones.
- Generator.ListComma: this is stated on the escaped item texts, not on the original values. The escaper never adds or removes a comma, but that is not proved separately.
- Regex engine: the model replaces it with scanners. Equivalence is proved against a per-position reference for each substitution, not against a general regex semantics.

=== FILE: aggregation.dfy ===
/** The aggregation translator (bq-sql.py lines 224-252): a rule's `| count() by g > 5`
    becomes a derived table that computes the aggregate, and a post-filter on it. */
module Aggregation {

  import opened Wrappers
  import opened Text
  import opened Tree

  /** The aggregation functions the parser knows; `Other` stands for any further one. */
  datatype AggFunc = Count | Max | Min | Sum | Avg | Other

  /** The parsed aggregation: the function, its name as written in the rule, the
      optional field it aggregates, the optional group field, the comparison operator and
      the compared value (already as text). */
  datatype Agg = Agg(
    func: AggFunc,
    funcText: string,
    aggField: Option<string>,
    groupField: Option<string>,
    condOp: string,
    condition: string)

  /** Python truthiness of an optional text: present and non-empty. */
  predicate Given(o: Option<string>) {
    o.Some? && |o.value| > 0
  }

  predicate Supported(f: AggFunc) {
    f != Other
  }

  /** ` GROUP BY g` when a group field is given, else nothing. */
  function GroupBy(a: Agg): string {
    if Given(a.groupField) then " GROUP BY " + a.groupField.value else ""
  }

  /** The aggregate column: the function over the field, or `COUNT(*)` with no field;
      any other function without a field is an error. */
  function SelectAgg(a: Agg): Result<string, Error> {
    if Given(a.aggField) then Ok("*," + a.funcText + "(" + a.aggField.value + ") AS agg")
    else if a.func == Count then Ok("*," + a.funcText + "(*) AS agg")
    else Err(AggregationFieldMissing(a.funcText))
  }

  /** `generateAggregation`: no aggregation passes the table and the WHERE text through;
      a supported one yields the derived table and the post-filter; an unsupported one is
      an error. */
  function Aggregate(agg: Option<Agg>, table: string, where: string): Result<(string, string), Error> {
    if agg.None? then Ok((table, where))
    else if !Supported(agg.value.func) then Err(AggregationNotImplemented(agg.value.funcText))
    else
      var a := agg.value;
      var select :- SelectAgg(a);
      Ok(("(SELECT " + select + " FROM " + table + " WHERE " + where + GroupBy(a) + ")",
          "agg " + a.condOp + " " + a.condition))
  }

  /** Without an aggregation the table and the WHERE text come back unchanged. */
  lemma AggregateIdentity(table: string, where: string)
    ensures Aggregate(None, table, where) == Ok((table, where))
  {
  }

  /** The translator fails exactly for a function outside the five, and for MAX, MIN,
      SUM or AVG without a field; COUNT never fails. */
  lemma AggregateOutcome(a: Agg, table: string, where: string)
    ensures Aggregate(Some(a), table, where).Err? <==> !Supported(a.func) || (a.func != Count && !Given(a.aggField))
    ensures !Supported(a.func) ==> Aggregate(Some(a), table, where) == Err(AggregationNotImplemented(a.funcText))
    ensures Supported(a.func) && a.func != Count && !Given(a.aggField) ==>
      Aggregate(Some(a), table, where) == Err(AggregationFieldMissing(a.funcText))
    ensures a.func == Count ==> Aggregate(Some(a), table, where).Ok?
  {
  }

  /** The aggregate as the rule names it: the function over the field, or over `*` when
      no field is given. */
  function Column(a: Agg): string {
    a.funcText + "(" + (if Given(a.aggField) then a.aggField.value else "*") + ")"
  }

  /** The aggregate column of a successful translation is the aggregate named `agg`. */
  lemma SelectAggColumn(a: Agg)
    requires SelectAgg(a).Ok?
    ensures SelectAgg(a).value == "*," + Column(a) + " AS agg"
  {
    if Given(a.aggField) {
      assert ") AS agg" == ")" + " AS agg";
    } else {
      assert "(*) AS agg" == "(" + "*" + ")" + " AS agg";
    }
  }

  /** A successful translation selects everything plus the aggregate, named `agg`, from
      the table filtered by the WHERE text; it keeps the WHERE text just before the
      optional ` GROUP BY g`, groups exactly when a group field is given, and filters on
      `agg <op> <value>`. */
  lemma AggregateShape(a: Agg, table: string, where: string)
    requires Aggregate(Some(a), table, where).Ok?
    ensures StartsWith(Aggregate(Some(a), table, where).value.0, "(SELECT *,")
    ensures StartsWith(Aggregate(Some(a), table, where).value.0,
      "(SELECT *," + Column(a) + " AS agg FROM " + table + " WHERE " + where)
    ensures Given(a.groupField) ==> EndsWith(Aggregate(Some(a), table, where).value.0, " GROUP BY " + a.groupField.value + ")")
    ensures !Given(a.groupField) ==> EndsWith(Aggregate(Some(a), table, where).value.0, where + ")")
    ensures |Aggregate(Some(a), table, where).value.0| ==
      |"(SELECT *," + Column(a) + " AS agg FROM " + table + " WHERE " + where| +
      (if Given(a.groupField) then |" GROUP BY " + a.groupField.value| else 0) + 1
    ensures Aggregate(Some(a), table, where).value.1 == "agg " + a.condOp + " " + a.condition
  {
    SelectAggColumn(a);
    var head := "(SELECT *," + Column(a) + " AS agg FROM " + table + " WHERE ";
    var tail := GroupBy(a) + ")";
    var fro := Aggregate(Some(a), table, where).value.0;
    assert "(SELECT " + SelectAgg(a).value + " FROM " == "(SELECT *," + Column(a) + " AS agg FROM " by {
      assert "(SELECT " + "*," == "(SELECT *,";
      assert " AS agg" + " FROM " == " AS agg FROM ";
    }
    assert fro == head + where + tail;
    Halves(head + where, tail);
    Framed("(SELECT *,", Column(a) + " AS agg FROM " + table + " WHERE " + where, tail);
    if !Given(a.groupField) {
      assert fro == head + (where + ")");
      Halves(head, where + ")");
    }
  }

  /** The literal pieces of the `count() by User > 5` translation, put together. */
  lemma CountByUserPieces()
    ensures "*," + "count" + "(*) AS agg" == "*,count(*) AS agg"
    ensures "(SELECT " + "*,count(*) AS agg" + " FROM " == "(SELECT *,count(*) AS agg FROM "
    ensures " GROUP BY " + "User" + ")" == " GROUP BY User)"
    ensures "agg " + ">" + " " + "5" == "agg > 5"
  {
  }

  /** A rule's `| count() by User > 5`: the derived table counts the rows of each user
      matching the condition, and the post-filter keeps the users with more than five. */
  lemma CountByUser(table: string, where: string)
    ensures Aggregate(Some(Agg(Count, "count", None, Some("User"), ">", "5")), table, where) ==
      Ok(("(SELECT *,count(*) AS agg FROM " + table + " WHERE " + where + " GROUP BY User)", "agg > 5"))
  {
    var a := Agg(Count, "count", None, Some("User"), ">", "5");
    var head := "(SELECT *,count(*) AS agg FROM ";
    CountByUserPieces();
    assert SelectAgg(a).value == "*,count(*) AS agg";
    assert GroupBy(a) + ")" == " GROUP BY User)";
    assert Aggregate(Some(a), table, where).value.0 == head + table + " WHERE " + where + (GroupBy(a) + ")");
  }
}

=== FILE: escape.dfy ===
/** The value escaper (`cleanValue`): five regular-expression substitutions applied
    in a fixed order, each modelled as a character scanner.

    Every scanner walks the text in CHUNKS: a maximal run of backslashes together with
    the one character after it (or the run alone at the end of the text). Each chunk
    starts right after a non-backslash character (or at the start), which is exactly
    the situation the substitutions' look-behind `(?<!\\)` asks about. Each scanner
    also has a per-position reference definition that follows how `re.sub` scans
    (try to match at a position; on success emit the replacement and skip the match,
    otherwise emit one character and move on by one), with a lemma that the two agree. */
module Escape {

  const Pair: string := "\\\\"

  /** Concatenation is associative (stated once so that proofs can cite it cheaply). */
  lemma Assoc<T>(a: seq<T>, b: seq<T>, c: seq<T>)
    ensures (a + b) + c == a + (b + c)
  {
  }
  const FourBackslashes: string := "\\\\\\\\"

  /** A run of `m` backslashes. */
  function Backslashes(m: nat): (r: string)
    ensures |r| == m
    ensures forall i :: 0 <= i < m ==> r[i] == '\\'
  {
    seq(m, i => '\\')
  }

  /** The text does not end in a backslash, so a scanner may restart right after it. */
  predicate EndsClean(s: string) {
    |s| == 0 || s[|s| - 1] != '\\'
  }

  /** Number of backslashes at the start of `s`. */
  function RunLen(s: string): (k: nat)
    ensures k <= |s|
    ensures k < |s| ==> s[k] != '\\'
    decreases |s|
  {
    if |s| > 0 && s[0] == '\\' then 1 + RunLen(s[1..]) else 0
  }

  /** Length of the chunk a scanner consumes at once: the leading run and the character after it. */
  function ChunkLen(s: string): (n: nat)
    ensures n <= |s|
    ensures |s| > 0 ==> n > 0
  {
    if RunLen(s) < |s| then RunLen(s) + 1 else |s|
  }

  /** Every character of the leading run is a backslash. */
  lemma {:induction false} RunIsBackslashes(s: string, i: nat)
    requires i < RunLen(s)
    ensures s[i] == '\\'
    decreases i
  {
    if i > 0 {
      RunIsBackslashes(s[1..], i - 1);
    }
  }

  /** Any run of backslashes that stops at a non-backslash (or the end) is THE leading run. */
  lemma {:induction false} RunLenUnique(s: string, k: nat)
    requires k <= |s|
    requires forall i :: 0 <= i < k ==> s[i] == '\\'
    requires k < |s| ==> s[k] != '\\'
    ensures RunLen(s) == k
    decreases k
  {
    if k > 0 {
      assert s[0] == '\\';
      var t := s[1..];
      assert forall i :: 0 <= i < k - 1 ==> t[i] == s[i + 1];
      RunLenUnique(t, k - 1);
    }
  }

  /** A chunk is the same chunk when more text follows it, provided it ends cleanly. */
  lemma ChunkOfConcat(a: string, b: string)
    requires |a| > 0 && EndsClean(a)
    ensures RunLen(a + b) == RunLen(a) < |a|
    ensures ChunkLen(a + b) == ChunkLen(a) == RunLen(a) + 1
    ensures (a + b)[..ChunkLen(a)] == a[..ChunkLen(a)]
    ensures (a + b)[ChunkLen(a)..] == a[ChunkLen(a)..] + b
    ensures EndsClean(a[ChunkLen(a)..])
  {
    var k := RunLen(a);
    if k == |a| {
      RunIsBackslashes(a, |a| - 1);
    }
    forall i | 0 <= i < k
      ensures (a + b)[i] == '\\'
    {
      RunIsBackslashes(a, i);
    }
    RunLenUnique(a + b, k);
  }

  /** A chunk taken on its own is still one chunk. */
  lemma {:induction false} ChunkAlone(s: string)
    requires |s| > 0
    ensures RunLen(s[..ChunkLen(s)]) == RunLen(s)
    ensures ChunkLen(s[..ChunkLen(s)]) == ChunkLen(s)
  {
    var c := s[..ChunkLen(s)];
    forall i | 0 <= i < RunLen(s)
      ensures c[i] == '\\'
    {
      RunIsBackslashes(s, i);
    }
    RunLenUnique(c, RunLen(s));
  }

  /** A run of backslashes followed by `rest` (which does not start with one) opens a chunk of that run. */
  lemma RunThen(m: nat, rest: string)
    requires |rest| == 0 || rest[0] != '\\'
    ensures RunLen(Backslashes(m) + rest) == m
  {
    RunLenUnique(Backslashes(m) + rest, m);
  }

  // ---------------------------------------------------------------------------
  // Step 1: a backslash with no backslash on either side and no `*` or `?` after
  // it becomes four backslashes (bq-sql.py line 209).
  // ---------------------------------------------------------------------------

  /** The backslash at `i` is one the first substitution rewrites. */
  predicate LoneBackslashAt(s: string, i: nat)
    requires i < |s|
  {
    && s[i] == '\\'
    && (i == 0 || s[i - 1] != '\\')
    && (i + 1 == |s| || (s[i + 1] != '\\' && s[i + 1] != '*' && s[i + 1] != '?'))
  }

  /** Reference for step 1: each position decided on its own, as the regex does. */
  function DoubleLoneRef(s: string, i: nat): string
    requires i <= |s|
    decreases |s| - i
  {
    if i == |s| then ""
    else (if LoneBackslashAt(s, i) then FourBackslashes else [s[i]]) + DoubleLoneRef(s, i + 1)
  }

  /** What step 1 makes of one chunk: a run of exactly one backslash, not followed by
      `*` or `?`, becomes four backslashes; everything else is kept. */
  function DoubleLoneChunk(c: string): string
    requires |c| > 0
  {
    if RunLen(c) == 1 && !(|c| == 2 && (c[1] == '*' || c[1] == '?')) then FourBackslashes + c[1..] else c
  }

  /** Step 1 as a chunk scanner. */
  function DoubleLoneBackslashes(s: string): string
    decreases |s|
  {
    if |s| == 0 then "" else DoubleLoneChunk(s[..ChunkLen(s)]) + DoubleLoneBackslashes(s[ChunkLen(s)..])
  }

  /** A text that is a single chunk is rewritten by that chunk's rule alone. */
  lemma {:induction false} DoubleLoneOneChunk(c: string)
    requires |c| > 0 && ChunkLen(c) == |c|
    ensures DoubleLoneBackslashes(c) == DoubleLoneChunk(c)
  {
    var n := ChunkLen(c);
    assert DoubleLoneBackslashes(c) == DoubleLoneChunk(c[..n]) + DoubleLoneBackslashes(c[n..]);
    assert c[..n] == c;
    assert c[n..] == [];
    assert DoubleLoneBackslashes([]) == [];
  }

  lemma {:induction false} DoubleLoneRefVerbatim(s: string, q: nat, e: nat)
    requires q <= e <= |s|
    requires forall j :: q <= j < e ==> !LoneBackslashAt(s, j)
    ensures DoubleLoneRef(s, q) == s[q..e] + DoubleLoneRef(s, e)
    decreases e - q
  {
    if q < e {
      DoubleLoneRefVerbatim(s, q + 1, e);
      var x := s[q + 1..e];
      var y := DoubleLoneRef(s, e);
      assert !LoneBackslashAt(s, q);
      assert DoubleLoneRef(s, q) == [s[q]] + DoubleLoneRef(s, q + 1);
      assert s[q..e] == [s[q]] + x;
      assert [s[q]] + (x + y) == ([s[q]] + x) + y;
    } else {
      assert s[q..e] == [];
    }
  }

  /** The reference consumes a chunk exactly as the scanner does; `q` is where the
      chunk starting at `p` ends. */
  lemma DoubleLoneRefChunk(s: string, p: nat, q: nat)
    requires p < |s|
    requires p == 0 || s[p - 1] != '\\'
    requires q == p + ChunkLen(s[p..])
    ensures q <= |s|
    ensures DoubleLoneRef(s, p) == DoubleLoneChunk(s[p..q]) + DoubleLoneRef(s, q)
  {
    var t := s[p..];
    var k := RunLen(t);
    var n := q - p;
    var c := s[p..q];
    assert c == t[..n];
    ChunkAlone(t);
    assert RunLen(c) == k;
    if k == 0 {
      assert n == 1 && c == [s[p]];
      assert !LoneBackslashAt(s, p);
      assert DoubleLoneChunk(c) == c;
    } else if k == 1 && !(n == 2 && (c[1] == '*' || c[1] == '?')) {
      assert s[p] == t[0];
      assert LoneBackslashAt(s, p);
      assert DoubleLoneRef(s, p) == FourBackslashes + DoubleLoneRef(s, p + 1);
      if n == 2 {
        assert s[p + 1] == t[1];
        assert !LoneBackslashAt(s, p + 1);
        assert DoubleLoneRef(s, p + 1) == [s[p + 1]] + DoubleLoneRef(s, q);
        assert c[1..] == [s[p + 1]];
        Assoc(FourBackslashes, [s[p + 1]], DoubleLoneRef(s, q));
      } else {
        assert c[1..] == [];
        assert FourBackslashes + c[1..] == FourBackslashes;
      }
    } else {
      forall j | p <= j < q
        ensures !LoneBackslashAt(s, j)
      {
        if j < p + k {
          RunIsBackslashes(t, j - p);
          assert s[j] == t[j - p];
          if j == p {
            if k == 1 {
              assert c[1] == '*' || c[1] == '?';
              assert s[p + 1] == c[1];
            } else {
              RunIsBackslashes(t, 1);
              assert s[p + 1] == t[1];
            }
          } else {
            RunIsBackslashes(t, j - 1 - p);
            assert s[j - 1] == t[j - 1 - p];
          }
        } else {
          assert s[j] == t[k];
        }
      }
      DoubleLoneRefVerbatim(s, p, q);
      assert DoubleLoneChunk(c) == c;
    }
  }

  /** A chunk that stops before the end of the text ends in a non-backslash. */
  lemma ChunkStops(t: string)
    requires ChunkLen(t) < |t|
    ensures ChunkLen(t) == RunLen(t) + 1 && ChunkLen(t) > 0 && t[ChunkLen(t) - 1] != '\\'
  {
  }

  /** The chunk starting at `p` ends at `q`, right after a non-backslash (or at the end),
      and the suffix from `p` is that chunk followed by the suffix from `q`. */
  lemma NextChunk(s: string, p: nat, q: nat)
    requires p < |s|
    requires q == p + ChunkLen(s[p..])
    ensures p < q <= |s|
    ensures q == |s| || s[q - 1] != '\\'
    ensures s[p..][..ChunkLen(s[p..])] == s[p..q]
    ensures s[p..][ChunkLen(s[p..])..] == s[q..]
  {
    var t := s[p..];
    var n := ChunkLen(t);
    if n < |t| {
      ChunkStops(t);
      assert s[q - 1] == t[n - 1];
    }
  }

  /** Step 1 on the suffix from `p`, unfolded once. */
  lemma DoubleLoneUnfold(s: string, p: nat, q: nat)
    requires p < |s|
    requires q == p + ChunkLen(s[p..])
    ensures q <= |s|
    ensures DoubleLoneBackslashes(s[p..]) == DoubleLoneChunk(s[p..q]) + DoubleLoneBackslashes(s[q..])
  {
    NextChunk(s, p, q);
  }

  lemma {:induction false} DoubleLoneRefFrom(s: string, p: nat)
    requires p <= |s|
    requires p == 0 || p == |s| || s[p - 1] != '\\'
    ensures DoubleLoneRef(s, p) == DoubleLoneBackslashes(s[p..])
    decreases |s| - p
  {
    if p == |s| {
      assert s[p..] == [];
    } else {
      var q := p + ChunkLen(s[p..]);
      NextChunk(s, p, q);
      DoubleLoneUnfold(s, p, q);
      DoubleLoneRefChunk(s, p, q);
      DoubleLoneRefFrom(s, q);
    }
  }

  /** The scanner does exactly what the regex substitution of line 209 does. */
  lemma DoubleLoneMatchesRegex(s: string)
    ensures DoubleLoneBackslashes(s) == DoubleLoneRef(s, 0)
  {
    DoubleLoneRefFrom(s, 0);
    assert s[0..] == s;
  }

  /** Step 1 works independently on the two sides of a non-backslash character. */
  lemma {:induction false} DoubleLoneSplit(a: string, b: string)
    requires EndsClean(a)
    ensures DoubleLoneBackslashes(a + b) == DoubleLoneBackslashes(a) + DoubleLoneBackslashes(b)
    decreases |a|
  {
    if |a| == 0 {
      assert a + b == b;
    } else {
      var n := ChunkLen(a);
      DoubleLoneUnfoldConcat(a, b, n);
      DoubleLoneSplit(a[n..], b);
      Assoc(DoubleLoneChunk(a[..n]), DoubleLoneBackslashes(a[n..]), DoubleLoneBackslashes(b));
    }
  }

  /** Step 1 on `a + b`, unfolded once: the first chunk of `a` comes first. */
  lemma DoubleLoneUnfoldConcat(a: string, b: string, n: nat)
    requires |a| > 0 && EndsClean(a) && n == ChunkLen(a)
    ensures 0 < n <= |a| && EndsClean(a[n..])
    ensures DoubleLoneBackslashes(a + b) == DoubleLoneChunk(a[..n]) + DoubleLoneBackslashes(a[n..] + b)
    ensures DoubleLoneBackslashes(a) == DoubleLoneChunk(a[..n]) + DoubleLoneBackslashes(a[n..])
  {
    ChunkOfConcat(a, b);
  }

  /** Text without backslashes passes step 1 unchanged. */
  lemma {:induction false} DoubleLoneWithoutBackslash(s: string)
    requires '\\' !in s
    ensures DoubleLoneBackslashes(s) == s
    decreases |s|
  {
    if |s| > 0 {
      assert RunLen(s) == 0;
      assert s[..1] == [s[0]];
      assert DoubleLoneChunk(s[..1]) == s[..1];
      assert '\\' !in s[1..];
      DoubleLoneWithoutBackslash(s[1..]);
      assert s == s[..1] + s[1..];
    }
  }

  /** A backslash between a non-backslash (or the start) and a character other than
      a backslash, `*` or `?` (or the end) becomes four backslashes. */
  lemma {:induction false} DoubleLoneQuadruples(a: string, b: string)
    requires EndsClean(a)
    requires |b| == 0 || (b[0] != '\\' && b[0] != '*' && b[0] != '?')
    ensures DoubleLoneBackslashes(a + "\\" + b) == DoubleLoneBackslashes(a) + FourBackslashes + DoubleLoneBackslashes(b)
  {
    if |b| == 0 {
      DoubleLoneQuadruplesAtEnd(a);
      assert a + "\\" + b == a + "\\";
      assert DoubleLoneBackslashes(b) == [];
    } else {
      DoubleLoneQuadruplesInside(a, b[0], b[1..]);
      assert b == [b[0]] + b[1..];
    }
  }

  lemma DoubleLoneQuadruplesAtEnd(a: string)
    requires EndsClean(a)
    ensures DoubleLoneBackslashes(a + "\\") == DoubleLoneBackslashes(a) + FourBackslashes
  {
    var s := "\\";
    DoubleLoneSplit(a, s);
    RunLenUnique(s, 1);
    assert ChunkLen(s) == 1;
    DoubleLoneOneChunk(s);
    assert s[1..] == [];
    assert DoubleLoneChunk(s) == FourBackslashes + s[1..];
  }

  lemma {:induction false} DoubleLoneQuadruplesInside(a: string, x: char, rest: string)
    requires EndsClean(a)
    requires x != '\\' && x != '*' && x != '?'
    ensures DoubleLoneBackslashes(a + "\\" + ([x] + rest)) == DoubleLoneBackslashes(a) + FourBackslashes + DoubleLoneBackslashes([x] + rest)
  {
    var c := ['\\', x];
    var d := [x];
    assert "\\" + d == c;
    Assoc(a, "\\", d + rest);
    Assoc("\\", d, rest);
    Assoc(a, c, rest);
    DoubleLoneSplit(a + c, rest);
    DoubleLoneSplit(a, c);
    DoubleLoneSplit(d, rest);
    DoubleLonePairChunk(x);
    DoubleLoneSingleChunk(x);
    var da := DoubleLoneBackslashes(a);
    var dr := DoubleLoneBackslashes(rest);
    Assoc(da, FourBackslashes + d, dr);
    Assoc(FourBackslashes, d, dr);
    Assoc(da, FourBackslashes, d + dr);
  }

  lemma DoubleLonePairChunk(x: char)
    requires x != '\\' && x != '*' && x != '?'
    ensures DoubleLoneBackslashes(['\\', x]) == FourBackslashes + [x]
  {
    var c := ['\\', x];
    RunLenUnique(c, 1);
    assert ChunkLen(c) == 2;
    DoubleLoneOneChunk(c);
    assert c[1..] == [x];
  }

  lemma DoubleLoneSingleChunk(x: char)
    requires x != '\\'
    ensures DoubleLoneBackslashes([x]) == [x]
  {
    var d := [x];
    assert RunLen(d) == 0;
    assert ChunkLen(d) == 1;
    DoubleLoneOneChunk(d);
  }

  /** A whole chunk that is more than its run ends in its one non-backslash. */
  lemma ChunkEnd(c: string)
    requires |c| > 0 && ChunkLen(c) == |c|
    ensures RunLen(c) < |c| ==> |c| == RunLen(c) + 1 && EndsClean(c)
  {
  }

  /** Step 1 leaves alone any chunk it has produced. */
  lemma {:induction false} DoubleLoneChunkStable(c: string)
    requires |c| > 0 && ChunkLen(c) == |c|
    ensures DoubleLoneBackslashes(DoubleLoneChunk(c)) == DoubleLoneChunk(c)
    ensures |c| > RunLen(c) ==> EndsClean(DoubleLoneChunk(c))
  {
    ChunkEnd(c);
    var k := RunLen(c);
    if k == 1 && !(|c| == 2 && (c[1] == '*' || c[1] == '?')) {
      assert DoubleLoneChunk(c) == FourBackslashes + c[1..];
      assert |c| == 2 ==> c[1] != '\\';
      DoubleLoneQuadStable(c[1..]);
    } else {
      assert DoubleLoneChunk(c) == c;
      DoubleLoneOneChunk(c);
    }
  }

  /** Four backslashes, followed by at most one non-backslash, are left alone by step 1. */
  lemma DoubleLoneQuadStable(rest: string)
    requires |rest| <= 1
    requires |rest| == 1 ==> rest[0] != '\\'
    ensures DoubleLoneBackslashes(FourBackslashes + rest) == FourBackslashes + rest
    ensures |rest| == 1 ==> EndsClean(FourBackslashes + rest)
  {
    var out := FourBackslashes + rest;
    forall i | 0 <= i < 4
      ensures out[i] == '\\'
    {
      assert out[i] == FourBackslashes[i];
    }
    RunLenUnique(out, 4);
    assert ChunkLen(out) == |out|;
    DoubleLoneOneChunk(out);
    if |rest| == 1 {
      assert out[|out| - 1] == rest[0];
    }
  }

  /** Applying step 1 twice is the same as applying it once: no lone backslash survives it. */
  lemma {:induction false} DoubleLoneIdempotent(s: string)
    ensures DoubleLoneBackslashes(DoubleLoneBackslashes(s)) == DoubleLoneBackslashes(s)
    decreases |s|
  {
    if |s| > 0 {
      var n := ChunkLen(s);
      var c := s[..n];
      ChunkAlone(s);
      var out := DoubleLoneChunk(c);
      var rest := DoubleLoneBackslashes(s[n..]);
      DoubleLoneChunkStable(c);
      DoubleLoneIdempotent(s[n..]);
      if n < |s| {
        DoubleLoneSplit(out, rest);
      } else {
        assert s[n..] == [];
        assert rest == [];
        assert out + rest == out;
      }
    }
  }

  // ---------------------------------------------------------------------------
  // Steps 2 and 3: `_` becomes `\_`, then `%` becomes `\%` (lines 212 and 215).
  // ---------------------------------------------------------------------------

  /** Puts a backslash in front of every `c`. */
  function EscapeChar(s: string, c: char): string
    decreases |s|
  {
    if |s| == 0 then "" else (if s[0] == c then ['\\', c] else [s[0]]) + EscapeChar(s[1..], c)
  }

  /** The inverse of `EscapeChar`: a backslash directly before `c` is dropped. */
  function UnescapeChar(s: string, c: char): string
    decreases |s|
  {
    if |s| == 0 then ""
    else if |s| >= 2 && s[0] == '\\' && s[1] == c then [c] + UnescapeChar(s[2..], c)
    else [s[0]] + UnescapeChar(s[1..], c)
  }

  /** Steps 2 and 3 in a single pass: `_` and `%` both get a backslash in front. */
  function EscapeSqlWildcards(s: string): string
    decreases |s|
  {
    if |s| == 0 then "" else (if s[0] == '_' || s[0] == '%' then ['\\', s[0]] else [s[0]]) + EscapeSqlWildcards(s[1..])
  }

  /** Every `c` in `s` has a backslash right before it. */
  predicate Escaped(s: string, c: char) {
    forall i :: 0 <= i < |s| && s[i] == c ==> i > 0 && s[i - 1] == '\\'
  }

  lemma EscapedConcat(a: string, b: string, c: char)
    requires Escaped(a, c) && Escaped(b, c)
    ensures Escaped(a + b, c)
  {
    forall i | 0 <= i < |a + b| && (a + b)[i] == c
      ensures i > 0 && (a + b)[i - 1] == '\\'
    {
      if i >= |a| {
        assert b[i - |a|] == c;
        assert (a + b)[i - 1] == b[i - |a| - 1];
      } else {
        assert a[i] == c;
      }
    }
  }

  lemma {:induction false} EscapeCharConcat(a: string, b: string, c: char)
    ensures EscapeChar(a + b, c) == EscapeChar(a, c) + EscapeChar(b, c)
    decreases |a|
  {
    if |a| == 0 {
      assert a + b == b;
    } else {
      var x := if a[0] == c then ['\\', c] else [a[0]];
      assert (a + b)[1..] == a[1..] + b;
      assert (a + b)[0] == a[0];
      EscapeCharConcat(a[1..], b, c);
      assert EscapeChar(a + b, c) == x + (EscapeChar(a[1..], c) + EscapeChar(b, c));
      Assoc(x, EscapeChar(a[1..], c), EscapeChar(b, c));
    }
  }

  /** A character other than `c` is kept as it is. */
  lemma EscapeCharOther(x: char, c: char)
    requires x != c
    ensures EscapeChar([x], c) == [x]
  {
    assert [x][1..] == [];
  }

  /** Escaping `_` and then `%` (the source's two substitutions) is the same as escaping both at once. */
  lemma {:induction false} EscapeUnderscoreThenPercent(s: string)
    ensures EscapeChar(EscapeChar(s, '_'), '%') == EscapeSqlWildcards(s)
    decreases |s|
  {
    if |s| > 0 {
      var x := if s[0] == '_' then ['\\', '_'] else [s[0]];
      var r := EscapeChar(s[1..], '_');
      assert EscapeChar(s, '_') == x + r;
      EscapeCharConcat(x, r, '%');
      EscapeUnderscoreThenPercent(s[1..]);
      if s[0] == '_' {
        assert x == ['\\'] + ['_'];
        EscapeCharConcat(['\\'], ['_'], '%');
        EscapeCharOther('\\', '%');
        EscapeCharOther('_', '%');
      } else if s[0] == '%' {
        assert x[1..] == [];
        assert EscapeChar(x, '%') == ['\\', '%'];
      } else {
        EscapeCharOther(s[0], '%');
      }
    }
  }

  /** `UnescapeChar` undoes `EscapeChar` (for any character other than the backslash itself). */
  lemma {:induction false} EscapeCharRoundTrip(s: string, c: char)
    requires c != '\\'
    ensures UnescapeChar(EscapeChar(s, c), c) == s
    decreases |s|
  {
    if |s| > 0 {
      var r := EscapeChar(s[1..], c);
      EscapeCharRoundTrip(s[1..], c);
      if s[0] == c {
        var e := ['\\', c] + r;
        assert EscapeChar(s, c) == e;
        assert e[2..] == r;
        assert UnescapeChar(e, c) == [c] + UnescapeChar(r, c);
      } else {
        var e := [s[0]] + r;
        assert EscapeChar(s, c) == e;
        if |r| > 0 {
          EscapeCharHead(s[1..], c);
        }
        assert e[1..] == r;
        assert UnescapeChar(e, c) == [s[0]] + UnescapeChar(r, c);
      }
      assert s == [s[0]] + s[1..];
    }
  }

  /** Escaped text never starts with the escaped character. */
  lemma EscapeCharHead(s: string, c: char)
    requires c != '\\'
    requires |EscapeChar(s, c)| > 0
    ensures EscapeChar(s, c)[0] != c
  {
  }

  /** After steps 2 and 3 every `_` and every `%` is preceded by a backslash. */
  lemma {:induction false} EscapeSqlWildcardsEscapes(s: string)
    ensures Escaped(EscapeSqlWildcards(s), '_')
    ensures Escaped(EscapeSqlWildcards(s), '%')
    decreases |s|
  {
    if |s| > 0 {
      var x := if s[0] == '_' || s[0] == '%' then ['\\', s[0]] else [s[0]];
      EscapeSqlWildcardsEscapes(s[1..]);
      EscapedConcat(x, EscapeSqlWildcards(s[1..]), '_');
      EscapedConcat(x, EscapeSqlWildcards(s[1..]), '%');
    }
  }

  /** Text without `_` and `%` passes steps 2 and 3 unchanged. */
  lemma {:induction false} EscapeSqlWildcardsWithout(s: string)
    requires '_' !in s && '%' !in s
    ensures EscapeSqlWildcards(s) == s
    decreases |s|
  {
    if |s| > 0 {
      assert '_' !in s[1..] && '%' !in s[1..];
      EscapeSqlWildcardsWithout(s[1..]);
      assert s == [s[0]] + s[1..];
    }
  }

  // ---------------------------------------------------------------------------
  // Steps 4 and 5: a `*` (then a `?`) after an even run of backslashes (possibly
  // empty) becomes `%` (then `_`); the run is replaced by the LAST pair it matched,
  // so any even run of two or more collapses to one pair (lines 218 and 221).
  // ---------------------------------------------------------------------------

  /** The two rule wildcards and the SQL wildcard each one turns into. */
  datatype Wildcard = Star | Question {
    function Symbol(): char {
      if Star? then '*' else '?'
    }
    function SqlSymbol(): char {
      if Star? then '%' else '_'
    }
  }

  /** A chunk the substitution rewrites: an even run of backslashes followed by the rule wildcard. */
  predicate ChunkMatches(c: string, w: Wildcard)
    requires |c| > 0
  {
    RunLen(c) % 2 == 0 && RunLen(c) < |c| && c[RunLen(c)] == w.Symbol()
  }

  /** The replacement text `\1%` (or `\1_`): group 1 is the last pair matched, if any. */
  function Replacement(k: nat, w: Wildcard): string {
    (if k == 0 then "" else Pair) + [w.SqlSymbol()]
  }

  function TranslateChunk(c: string, w: Wildcard): string
    requires |c| > 0
  {
    if ChunkMatches(c, w) then Replacement(RunLen(c), w) else c
  }

  /** Step 4 (`w == Star`) or step 5 (`w == Question`) as a chunk scanner. */
  function TranslateWildcard(s: string, w: Wildcard): string
    decreases |s|
  {
    if |s| == 0 then "" else TranslateChunk(s[..ChunkLen(s)], w) + TranslateWildcard(s[ChunkLen(s)..], w)
  }

  /** Position `i` begins a match of the pattern with `m` pairs of backslashes. */
  predicate PairsThenWildcard(s: string, i: nat, m: nat, w: Wildcard) {
    && i + 2 * m < |s|
    && (forall j :: i <= j < i + 2 * m ==> s[j] == '\\')
    && s[i + 2 * m] == w.Symbol()
  }

  /** The substitution matches at `i`: no backslash before it, an even run of backslashes from it, then the wildcard. */
  predicate WildcardMatchAt(s: string, i: nat, w: Wildcard)
    requires i < |s|
  {
    && (i == 0 || s[i - 1] != '\\')
    && RunLen(s[i..]) % 2 == 0
    && i + RunLen(s[i..]) < |s|
    && s[i + RunLen(s[i..])] == w.Symbol()
  }

  /** One step of `re.sub` at `i`: on a match, the replacement and the position after
      the match; otherwise the character itself and the next position. */
  function RegexStep(s: string, i: nat, w: Wildcard): (r: (string, nat))
    requires i < |s|
    ensures i < r.1 <= |s|
  {
    if WildcardMatchAt(s, i, w) then (Replacement(RunLen(s[i..]), w), i + RunLen(s[i..]) + 1) else ([s[i]], i + 1)
  }

  /** Reference for steps 4 and 5: `re.sub`'s scan from position `i`. */
  function TranslateRef(s: string, i: nat, w: Wildcard): string
    requires i <= |s|
    decreases |s| - i
  {
    if i == |s| then "" else RegexStep(s, i, w).0 + TranslateRef(s, RegexStep(s, i, w).1, w)
  }

  /** `WildcardMatchAt` is the regex `(?<!\\)(\\\\)*(?!\\)\*`: some number of pairs, then the wildcard. */
  lemma WildcardMatchIsPattern(s: string, i: nat, w: Wildcard)
    requires i < |s|
    ensures WildcardMatchAt(s, i, w) <==> (i == 0 || s[i - 1] != '\\') && exists m: nat :: PairsThenWildcard(s, i, m, w)
  {
    var t := s[i..];
    var k := RunLen(t);
    if WildcardMatchAt(s, i, w) {
      forall j | i <= j < i + k
        ensures s[j] == '\\'
      {
        RunIsBackslashes(t, j - i);
      }
      assert PairsThenWildcard(s, i, k / 2, w);
    }
    if exists m: nat :: PairsThenWildcard(s, i, m, w) {
      var m: nat :| PairsThenWildcard(s, i, m, w);
      assert forall j :: 0 <= j < 2 * m ==> t[j] == s[i + j];
      RunLenUnique(t, 2 * m);
    }
  }

  lemma {:induction false} TranslateRefVerbatim(s: string, q: nat, e: nat, w: Wildcard)
    requires q <= e <= |s|
    requires forall j :: q <= j < e ==> !WildcardMatchAt(s, j, w)
    ensures TranslateRef(s, q, w) == s[q..e] + TranslateRef(s, e, w)
    decreases e - q
  {
    if q < e {
      TranslateRefVerbatim(s, q + 1, e, w);
      assert !WildcardMatchAt(s, q, w);
      assert TranslateRef(s, q, w) == [s[q]] + TranslateRef(s, q + 1, w);
      assert s[q..e] == [s[q]] + s[q + 1..e];
      Assoc([s[q]], s[q + 1..e], TranslateRef(s, e, w));
    } else {
      assert s[q..e] == [];
    }
  }

  /** The reference consumes a chunk exactly as the scanner does; `q` is where the
      chunk starting at `p` ends. */
  lemma TranslateRefChunk(s: string, p: nat, q: nat, w: Wildcard)
    requires p < |s|
    requires p == 0 || s[p - 1] != '\\'
    requires q == p + ChunkLen(s[p..])
    ensures q <= |s|
    ensures TranslateRef(s, p, w) == TranslateChunk(s[p..q], w) + TranslateRef(s, q, w)
  {
    ChunkMatchesAt(s, p, q, w);
    if WildcardMatchAt(s, p, w) {
      TranslateRefMatch(s, p, q, w);
    } else {
      TranslateRefNoMatch(s, p, q, w);
      assert TranslateChunk(s[p..q], w) == s[p..q];
    }
  }

  /** The chunk from `p` to `q`, read on its own, has the same run and the same last
      character. */
  lemma ChunkAt(s: string, p: nat, q: nat)
    requires p < |s|
    requires q == p + ChunkLen(s[p..])
    ensures q <= |s|
    ensures RunLen(s[p..q]) == RunLen(s[p..])
    ensures ChunkLen(s[p..q]) == ChunkLen(s[p..]) == q - p
    ensures RunLen(s[p..]) < |s| - p ==> s[p..q][RunLen(s[p..])] == s[p + RunLen(s[p..])]
  {
    var t := s[p..];
    assert s[p..q] == t[..ChunkLen(t)];
    ChunkAlone(t);
  }

  lemma TranslateRefMatch(s: string, p: nat, q: nat, w: Wildcard)
    requires p < |s|
    requires WildcardMatchAt(s, p, w)
    requires q == p + ChunkLen(s[p..])
    ensures q <= |s|
    ensures TranslateRef(s, p, w) == TranslateChunk(s[p..q], w) + TranslateRef(s, q, w)
  {
    var k := RunLen(s[p..]);
    var c := s[p..q];
    ChunkAt(s, p, q);
    assert q == p + k + 1;
    assert ChunkMatches(c, w);
    assert TranslateChunk(c, w) == Replacement(k, w);
    assert RegexStep(s, p, w) == (Replacement(k, w), q);
  }

  /** Inside a chunk, every position but the first follows a backslash, so nothing matches there. */
  lemma NoMatchInsideChunk(s: string, p: nat, j: nat, w: Wildcard)
    requires p < j < |s|
    requires j < p + ChunkLen(s[p..])
    ensures !WildcardMatchAt(s, j, w)
  {
    var t := s[p..];
    RunIsBackslashes(t, j - 1 - p);
    assert s[j - 1] == t[j - 1 - p];
  }

  lemma TranslateRefNoMatch(s: string, p: nat, q: nat, w: Wildcard)
    requires p < |s|
    requires !WildcardMatchAt(s, p, w)
    requires q == p + ChunkLen(s[p..])
    ensures q <= |s|
    ensures TranslateRef(s, p, w) == s[p..q] + TranslateRef(s, q, w)
  {
    forall j | p <= j < q
      ensures !WildcardMatchAt(s, j, w)
    {
      if j > p {
        NoMatchInsideChunk(s, p, j, w);
      }
    }
    TranslateRefVerbatim(s, p, q, w);
  }

  /** At a position not preceded by a backslash, the chunk matches exactly when the regex does. */
  lemma ChunkMatchesAt(s: string, p: nat, q: nat, w: Wildcard)
    requires p < |s|
    requires p == 0 || s[p - 1] != '\\'
    requires q == p + ChunkLen(s[p..])
    ensures q <= |s|
    ensures ChunkMatches(s[p..q], w) <==> WildcardMatchAt(s, p, w)
  {
    ChunkAt(s, p, q);
  }

  /** Steps 4 and 5 on the suffix from `p`, unfolded once. */
  lemma TranslateUnfold(s: string, p: nat, q: nat, w: Wildcard)
    requires p < |s|
    requires q == p + ChunkLen(s[p..])
    ensures q <= |s|
    ensures TranslateWildcard(s[p..], w) == TranslateChunk(s[p..q], w) + TranslateWildcard(s[q..], w)
  {
    NextChunk(s, p, q);
  }

  lemma {:induction false} TranslateRefFrom(s: string, p: nat, w: Wildcard)
    requires p <= |s|
    requires p == 0 || p == |s| || s[p - 1] != '\\'
    ensures TranslateRef(s, p, w) == TranslateWildcard(s[p..], w)
    decreases |s| - p
  {
    if p == |s| {
      assert s[p..] == [];
    } else {
      var q := p + ChunkLen(s[p..]);
      NextChunk(s, p, q);
      TranslateUnfold(s, p, q, w);
      TranslateRefChunk(s, p, q, w);
      TranslateRefFrom(s, q, w);
    }
  }

  /** The scanner does exactly what the regex substitutions of lines 218 and 221 do. */
  lemma TranslateMatchesRegex(s: string, w: Wildcard)
    ensures TranslateWildcard(s, w) == TranslateRef(s, 0, w)
  {
    TranslateRefFrom(s, 0, w);
    assert s[0..] == s;
  }

  /** Steps 4 and 5 work independently on the two sides of a non-backslash character. */
  lemma {:induction false} TranslateSplit(a: string, b: string, w: Wildcard)
    requires EndsClean(a)
    ensures TranslateWildcard(a + b, w) == TranslateWildcard(a, w) + TranslateWildcard(b, w)
    decreases |a|
  {
    if |a| == 0 {
      assert a + b == b;
    } else {
      var n := ChunkLen(a);
      TranslateUnfoldConcat(a, b, n, w);
      TranslateSplit(a[n..], b, w);
      Assoc(TranslateChunk(a[..n], w), TranslateWildcard(a[n..], w), TranslateWildcard(b, w));
    }
  }

  /** Steps 4 and 5 on `a + b`, unfolded once: the first chunk of `a` comes first. */
  lemma {:induction false} TranslateUnfoldConcat(a: string, b: string, n: nat, w: Wildcard)
    requires |a| > 0 && EndsClean(a) && n == ChunkLen(a)
    ensures n <= |a| && EndsClean(a[n..])
    ensures TranslateWildcard(a + b, w) == TranslateChunk(a[..n], w) + TranslateWildcard(a[n..] + b, w)
    ensures TranslateWildcard(a, w) == TranslateChunk(a[..n], w) + TranslateWildcard(a[n..], w)
  {
    ChunkOfConcat(a, b);
  }

  /** A text that is a single chunk is rewritten by that chunk's rule alone. */
  lemma TranslateOneChunk(c: string, w: Wildcard)
    requires |c| > 0 && ChunkLen(c) == |c|
    ensures TranslateWildcard(c, w) == TranslateChunk(c, w)
  {
    var n := ChunkLen(c);
    assert TranslateWildcard(c, w) == TranslateChunk(c[..n], w) + TranslateWildcard(c[n..], w);
    assert c[..n] == c;
    assert c[n..] == [];
    assert TranslateWildcard([], w) == [];
  }

  /** Text without the rule wildcard passes the step unchanged. */
  lemma {:induction false} TranslateWithoutSymbol(s: string, w: Wildcard)
    requires w.Symbol() !in s
    ensures TranslateWildcard(s, w) == s
    decreases |s|
  {
    if |s| > 0 {
      var n := ChunkLen(s);
      ChunkWithoutSymbol(s, n, w);
      TranslateWithoutSymbol(s[n..], w);
    }
  }

  /** A chunk without the rule wildcard is kept, and so is the rest of the text. */
  lemma ChunkWithoutSymbol(s: string, n: nat, w: Wildcard)
    requires |s| > 0 && n == ChunkLen(s)
    requires w.Symbol() !in s
    ensures TranslateChunk(s[..n], w) == s[..n]
    ensures w.Symbol() !in s[n..]
    ensures s == s[..n] + s[n..]
  {
    var c := s[..n];
    assert RunLen(c) < |c| ==> c[RunLen(c)] in s;
  }

  /** The heart of steps 4 and 5. After a non-backslash (or at the start), a run of `m`
      backslashes followed by the rule wildcard is rewritten on its own: with `m` even
      the wildcard becomes the SQL wildcard and the run shrinks to at most one pair
      (so `\\\\*` becomes `\\%`, not `\\\\%`); with `m` odd the wildcard is escaped and
      everything is kept. */
  lemma TranslateRun(a: string, m: nat, b: string, w: Wildcard)
    requires EndsClean(a)
    ensures m % 2 == 0 ==>
      TranslateWildcard(a + Backslashes(m) + [w.Symbol()] + b, w) == TranslateWildcard(a, w) + Replacement(m, w) + TranslateWildcard(b, w)
    ensures m % 2 == 1 ==>
      TranslateWildcard(a + Backslashes(m) + [w.Symbol()] + b, w) == TranslateWildcard(a, w) + (Backslashes(m) + [w.Symbol()]) + TranslateWildcard(b, w)
  {
    var c := Backslashes(m) + [w.Symbol()];
    Assoc(a, Backslashes(m), [w.Symbol()]);
    Assoc(a, c, b);
    RunThen(m, [w.Symbol()]);
    assert ChunkLen(c) == |c|;
    TranslateOneChunk(c, w);
    assert c[m] == w.Symbol();
    TranslateSplit(a, c + b, w);
    TranslateSplit(c, b, w);
    Assoc(TranslateWildcard(a, w), TranslateWildcard(c, w), TranslateWildcard(b, w));
  }

  /** The replacement holds no rule wildcard and ends in the SQL wildcard. */
  lemma ReplacementShape(k: nat, w: Wildcard)
    ensures w.Symbol() !in Replacement(k, w)
    ensures EndsClean(Replacement(k, w))
    ensures forall i :: 0 <= i < |Replacement(k, w)| - 1 ==> Replacement(k, w)[i] == '\\'
  {
  }

  /** Step 4 or 5 leaves alone any chunk it has produced. */
  lemma TranslateChunkStable(c: string, w: Wildcard)
    requires |c| > 0 && ChunkLen(c) == |c|
    ensures TranslateWildcard(TranslateChunk(c, w), w) == TranslateChunk(c, w)
    ensures RunLen(c) < |c| ==> EndsClean(TranslateChunk(c, w))
  {
    if ChunkMatches(c, w) {
      ReplacementShape(RunLen(c), w);
      TranslateWithoutSymbol(Replacement(RunLen(c), w), w);
    } else {
      TranslateOneChunk(c, w);
      if RunLen(c) < |c| {
        assert c[|c| - 1] == c[RunLen(c)];
      }
    }
  }

  /** Applying step 4 (or 5) twice is the same as applying it once. */
  lemma {:induction false} TranslateIdempotent(s: string, w: Wildcard)
    ensures TranslateWildcard(TranslateWildcard(s, w), w) == TranslateWildcard(s, w)
    decreases |s|
  {
    if |s| > 0 {
      var n := ChunkLen(s);
      var c := s[..n];
      ChunkAlone(s);
      var out := TranslateChunk(c, w);
      var rest := TranslateWildcard(s[n..], w);
      TranslateChunkStable(c, w);
      TranslateIdempotent(s[n..], w);
      if n < |s| {
        TranslateSplit(out, rest, w);
      } else {
        assert s[n..] == [];
        assert rest == [];
        assert out + rest == out;
      }
    }
  }

  /** `Escaped` holds of both parts of a text split after a non-backslash. */
  lemma EscapedSplit(a: string, b: string, d: char)
    requires Escaped(a + b, d)
    ensures Escaped(a, d)
    ensures EndsClean(a) ==> Escaped(b, d)
  {
    forall i | 0 <= i < |a| && a[i] == d
      ensures i > 0 && a[i - 1] == '\\'
    {
      assert (a + b)[i] == a[i];
      assert i > 0 && (a + b)[i - 1] == a[i - 1];
    }
    if EndsClean(a) {
      forall i | 0 <= i < |b| && b[i] == d
        ensures i > 0 && b[i - 1] == '\\'
      {
        assert (a + b)[|a| + i] == b[i];
        assert |a| > 0 ==> (a + b)[|a| - 1] == a[|a| - 1];
        assert i > 0;
        assert (a + b)[|a| + i - 1] == b[i - 1];
      }
    }
  }

  /** The whole leading run consists of backslashes. */
  lemma RunAllBackslashes(s: string)
    ensures forall i :: 0 <= i < RunLen(s) ==> s[i] == '\\'
  {
    forall i | 0 <= i < RunLen(s)
      ensures s[i] == '\\'
    {
      RunIsBackslashes(s, i);
    }
  }

  /** A chunk's rewrite leaves no rule wildcard without a backslash before it. */
  lemma TranslateChunkEscapes(c: string, w: Wildcard)
    requires |c| > 0 && ChunkLen(c) == |c|
    ensures Escaped(TranslateChunk(c, w), w.Symbol())
  {
    if ChunkMatches(c, w) {
      ReplacementShape(RunLen(c), w);
    } else {
      RunAllBackslashes(c);
      forall i | 0 <= i < |c| && c[i] == w.Symbol()
        ensures i > 0 && c[i - 1] == '\\'
      {
        assert i == RunLen(c);
      }
    }
  }

  /** After step 4 no `*`, and after step 5 no `?`, is left without a backslash right before it. */
  lemma {:induction false} TranslateLeavesNoBareWildcard(s: string, w: Wildcard)
    ensures Escaped(TranslateWildcard(s, w), w.Symbol())
    decreases |s|
  {
    if |s| > 0 {
      var n := ChunkLen(s);
      ChunkAlone(s);
      TranslateChunkEscapes(s[..n], w);
      TranslateLeavesNoBareWildcard(s[n..], w);
      EscapedConcat(TranslateChunk(s[..n], w), TranslateWildcard(s[n..], w), w.Symbol());
    }
  }

  /** Characters of the replacement: backslashes, then the SQL wildcard. */
  lemma ReplacementChars(k: nat, w: Wildcard, x: char)
    requires x != '\\' && x != w.SqlSymbol()
    ensures x !in Replacement(k, w)
  {
  }

  /** Steps 4 and 5 keep an escaped character escaped, unless it is the one the step produces. */
  lemma {:induction false} TranslatePreservesEscaped(s: string, w: Wildcard, d: char)
    requires d != '\\' && d != w.SqlSymbol()
    requires Escaped(s, d)
    ensures Escaped(TranslateWildcard(s, w), d)
    decreases |s|
  {
    if |s| > 0 {
      var n := ChunkLen(s);
      EscapedChunks(s, n, d);
      TranslatePreservesEscaped(s[n..], w, d);
      TranslateChunkKeepsEscaped(s[..n], w, d);
      EscapedConcat(TranslateChunk(s[..n], w), TranslateWildcard(s[n..], w), d);
    }
  }

  /** `Escaped` holds of the first chunk and of the rest. */
  lemma EscapedChunks(s: string, n: nat, d: char)
    requires |s| > 0 && n == ChunkLen(s)
    requires Escaped(s, d)
    ensures Escaped(s[..n], d) && Escaped(s[n..], d)
  {
    var c := s[..n];
    assert s == c + s[n..];
    if n < |s| {
      assert c[n - 1] == s[RunLen(s)];
    } else {
      assert s[n..] == [];
    }
    EscapedSplit(c, s[n..], d);
  }

  /** A chunk's rewrite keeps an escaped character escaped, unless it is the one the step produces. */
  lemma TranslateChunkKeepsEscaped(c: string, w: Wildcard, d: char)
    requires |c| > 0
    requires d != '\\' && d != w.SqlSymbol()
    requires Escaped(c, d)
    ensures Escaped(TranslateChunk(c, w), d)
  {
    if ChunkMatches(c, w) {
      ReplacementChars(RunLen(c), w, d);
    }
  }

  /** Steps 4 and 5 introduce no character but backslashes and their SQL wildcard. */
  lemma {:induction false} TranslateKeepsAbsent(s: string, w: Wildcard, x: char)
    requires x != '\\' && x != w.SqlSymbol()
    requires x !in s
    ensures x !in TranslateWildcard(s, w)
    decreases |s|
  {
    if |s| > 0 {
      var n := ChunkLen(s);
      var c := s[..n];
      assert s == c + s[n..];
      TranslateKeepsAbsent(s[n..], w, x);
      if ChunkMatches(c, w) {
        ReplacementChars(RunLen(c), w, x);
      }
    }
  }

  /** Step 1 introduces no character but backslashes. */
  lemma {:induction false} DoubleLoneKeepsAbsent(s: string, x: char)
    requires x != '\\'
    requires x !in s
    ensures x !in DoubleLoneBackslashes(s)
    decreases |s|
  {
    if |s| > 0 {
      var n := ChunkLen(s);
      var c := s[..n];
      assert s == c + s[n..];
      DoubleLoneKeepsAbsent(s[n..], x);
      assert x !in FourBackslashes;
      assert x !in c[1..];
    }
  }

  /** Steps 2 and 3 introduce no character but backslashes. */
  lemma {:induction false} EscapeSqlWildcardsKeepsAbsent(s: string, x: char)
    requires x != '\\'
    requires x !in s
    ensures x !in EscapeSqlWildcards(s)
    decreases |s|
  {
    if |s| > 0 {
      assert x !in s[1..];
      EscapeSqlWildcardsKeepsAbsent(s[1..], x);
    }
  }

  // ---------------------------------------------------------------------------
  // The whole escaper (lines 204-222).
  // ---------------------------------------------------------------------------

  /** `cleanValue` on a string: the five substitutions in the source's order. */
  function CleanValue(s: string): string {
    var quadrupled := DoubleLoneBackslashes(s);
    var escaped := EscapeChar(EscapeChar(quadrupled, '_'), '%');
    TranslateWildcard(TranslateWildcard(escaped, Star), Question)
  }

  /** The text of `CleanValue` after step 3. */
  function EscapedStage(s: string): string {
    EscapeSqlWildcards(DoubleLoneBackslashes(s))
  }

  lemma {:induction false} CleanValueStages(s: string)
    ensures CleanValue(s) == TranslateWildcard(TranslateWildcard(EscapedStage(s), Star), Question)
  {
    EscapeUnderscoreThenPercent(DoubleLoneBackslashes(s));
  }

  /** A `_` in the output has a backslash before it, unless the value had a `?` (which becomes `_`). */
  lemma CleanValueEscapesUnderscore(s: string)
    requires '?' !in s
    ensures Escaped(CleanValue(s), '_')
  {
    CleanValueStages(s);
    var e := EscapedStage(s);
    EscapeSqlWildcardsEscapes(DoubleLoneBackslashes(s));
    TranslatePreservesEscaped(e, Star, '_');
    DoubleLoneKeepsAbsent(s, '?');
    EscapeSqlWildcardsKeepsAbsent(DoubleLoneBackslashes(s), '?');
    TranslateKeepsAbsent(e, Star, '?');
    TranslateWithoutSymbol(TranslateWildcard(e, Star), Question);
  }

  /** A `%` in the output has a backslash before it, unless the value had a `*` (which becomes `%`). */
  lemma CleanValueEscapesPercent(s: string)
    requires '*' !in s
    ensures Escaped(CleanValue(s), '%')
  {
    CleanValueStages(s);
    var e := EscapedStage(s);
    EscapeSqlWildcardsEscapes(DoubleLoneBackslashes(s));
    DoubleLoneKeepsAbsent(s, '*');
    EscapeSqlWildcardsKeepsAbsent(DoubleLoneBackslashes(s), '*');
    TranslateWithoutSymbol(e, Star);
    TranslatePreservesEscaped(e, Question, '%');
  }

  /** No `*` or `?` of the output is left without a backslash right before it. */
  lemma CleanValueNoBareRuleWildcards(s: string)
    ensures Escaped(CleanValue(s), '*')
    ensures Escaped(CleanValue(s), '?')
  {
    CleanValueStages(s);
    var e := EscapedStage(s);
    TranslateLeavesNoBareWildcard(e, Star);
    TranslatePreservesEscaped(TranslateWildcard(e, Star), Question, '*');
    TranslateLeavesNoBareWildcard(TranslateWildcard(e, Star), Question);
  }

  /** A value with no backslash, `*` or `?` only gets its `_` and `%` escaped, and
      dropping those backslashes gives the value back. */
  lemma {:induction false} CleanValuePlainText(s: string)
    requires '\\' !in s && '*' !in s && '?' !in s
    ensures CleanValue(s) == EscapeChar(EscapeChar(s, '_'), '%') == EscapeSqlWildcards(s)
    ensures UnescapeChar(UnescapeChar(CleanValue(s), '%'), '_') == s
  {
    DoubleLoneWithoutBackslash(s);
    CleanValueStages(s);
    EscapeUnderscoreThenPercent(s);
    EscapeSqlWildcardsKeepsAbsent(s, '*');
    EscapeSqlWildcardsKeepsAbsent(s, '?');
    TranslateWithoutSymbol(EscapeSqlWildcards(s), Star);
    TranslateWithoutSymbol(EscapeSqlWildcards(s), Question);
    EscapeCharRoundTrip(EscapeChar(s, '_'), '%');
    EscapeCharRoundTrip(s, '_');
  }

  /** The characters `cleanValue` acts on. */
  predicate Special(s: string) {
    '\\' in s || '_' in s || '%' in s || '*' in s || '?' in s
  }

  /** A value with none of `\ _ % * ?` is returned unchanged. */
  lemma CleanValueUntouched(s: string)
    requires !Special(s)
    ensures CleanValue(s) == s
  {
    CleanValuePlainText(s);
    EscapeSqlWildcardsWithout(s);
  }

  lemma EndsCleanConcat(x: string, y: string)
    requires EndsClean(y)
    requires |y| > 0 || EndsClean(x)
    ensures EndsClean(x + y)
  {
    if |y| > 0 {
      assert (x + y)[|x + y| - 1] == y[|y| - 1];
    } else {
      assert x + y == x;
    }
  }

  /** Step 1 keeps a text that does not end in a backslash that way. */
  lemma {:induction false} DoubleLoneEndsClean(s: string)
    requires EndsClean(s)
    ensures EndsClean(DoubleLoneBackslashes(s))
    decreases |s|
  {
    if |s| > 0 {
      var n := ChunkLen(s);
      var c := s[..n];
      ChunkAlone(s);
      assert RunLen(s) < |s| by {
        RunAllBackslashes(s);
      }
      DoubleLoneChunkStable(c);
      assert |s[n..]| > 0 ==> s[n..][|s[n..]| - 1] == s[|s| - 1];
      DoubleLoneEndsClean(s[n..]);
      EndsCleanConcat(DoubleLoneChunk(c), DoubleLoneBackslashes(s[n..]));
    }
  }

  /** Steps 4 and 5 keep a text that does not end in a backslash that way. */
  lemma {:induction false} TranslateEndsClean(s: string, w: Wildcard)
    requires EndsClean(s)
    ensures EndsClean(TranslateWildcard(s, w))
    decreases |s|
  {
    if |s| > 0 {
      var n := ChunkLen(s);
      var c := s[..n];
      ChunkAlone(s);
      assert RunLen(s) < |s| by {
        RunAllBackslashes(s);
      }
      TranslateChunkStable(c, w);
      assert |s[n..]| > 0 ==> s[n..][|s[n..]| - 1] == s[|s| - 1];
      TranslateEndsClean(s[n..], w);
      EndsCleanConcat(TranslateChunk(c, w), TranslateWildcard(s[n..], w));
    }
  }

  /** Steps 2 and 3 keep a text that does not end in a backslash that way. */
  lemma {:induction false} EscapeSqlWildcardsEndsClean(s: string)
    requires EndsClean(s)
    ensures EndsClean(EscapeSqlWildcards(s))
    decreases |s|
  {
    if |s| > 0 {
      var x := if s[0] == '_' || s[0] == '%' then ['\\', s[0]] else [s[0]];
      var r := s[1..];
      if |r| > 0 {
        assert r[|r| - 1] == s[|s| - 1];
        EscapeSqlWildcardsEndsClean(r);
        assert |EscapeSqlWildcards(r)| > 0;
        EndsCleanConcat(x, EscapeSqlWildcards(r));
      } else {
        assert EscapeSqlWildcards(r) == [];
        assert x + [] == x;
      }
    }
  }

  lemma {:induction false} EscapeSqlWildcardsConcat(a: string, b: string)
    ensures EscapeSqlWildcards(a + b) == EscapeSqlWildcards(a) + EscapeSqlWildcards(b)
    decreases |a|
  {
    if |a| == 0 {
      assert a + b == b;
    } else {
      var x := if a[0] == '_' || a[0] == '%' then ['\\', a[0]] else [a[0]];
      assert (a + b)[1..] == a[1..] + b;
      assert (a + b)[0] == a[0];
      EscapeSqlWildcardsConcat(a[1..], b);
      Assoc(x, EscapeSqlWildcards(a[1..]), EscapeSqlWildcards(b));
    }
  }

  /** The whole escaper works independently on the two sides of a non-backslash character. */
  lemma {:induction false} CleanValueSplit(a: string, b: string)
    requires EndsClean(a)
    ensures CleanValue(a + b) == CleanValue(a) + CleanValue(b)
  {
    CleanValueStages(a + b);
    CleanValueStages(a);
    CleanValueStages(b);
    DoubleLoneSplit(a, b);
    EscapeSqlWildcardsConcat(DoubleLoneBackslashes(a), DoubleLoneBackslashes(b));
    DoubleLoneEndsClean(a);
    EscapeSqlWildcardsEndsClean(DoubleLoneBackslashes(a));
    var ea := EscapedStage(a);
    var eb := EscapedStage(b);
    TranslateSplit(ea, eb, Star);
    TranslateEndsClean(ea, Star);
    TranslateSplit(TranslateWildcard(ea, Star), TranslateWildcard(eb, Star), Question);
  }

  /** Without `*` and `?` in the value, only steps 1 to 3 act. */
  lemma CleanValueWithoutRuleWildcards(s: string)
    requires '*' !in s && '?' !in s
    ensures CleanValue(s) == EscapedStage(s)
  {
    CleanValueStages(s);
    DoubleLoneKeepsAbsent(s, '*');
    DoubleLoneKeepsAbsent(s, '?');
    EscapeSqlWildcardsKeepsAbsent(DoubleLoneBackslashes(s), '*');
    EscapeSqlWildcardsKeepsAbsent(DoubleLoneBackslashes(s), '?');
    TranslateWithoutSymbol(EscapedStage(s), Star);
    TranslateWithoutSymbol(EscapedStage(s), Question);
  }

  /** A run of `m` backslashes and a rule wildcard, after a non-backslash (or at the start):
      for even `m` (zero included) the wildcard becomes its SQL wildcard and the run keeps at
      most one pair; for odd `m` all of it is kept, the wildcard staying literal. */
  lemma {:induction false} CleanValueWildcardRun(a: string, m: nat, b: string, w: Wildcard)
    requires EndsClean(a)
    ensures m % 2 == 0 ==>
      CleanValue(a + Backslashes(m) + [w.Symbol()] + b) == CleanValue(a) + Replacement(m, w) + CleanValue(b)
    ensures m % 2 == 1 ==>
      CleanValue(a + Backslashes(m) + [w.Symbol()] + b) == CleanValue(a) + (Backslashes(m) + [w.Symbol()]) + CleanValue(b)
  {
    var c := Backslashes(m) + [w.Symbol()];
    Assoc(a, Backslashes(m), [w.Symbol()]);
    Assoc(a, c, b);
    assert c[|c| - 1] == w.Symbol();
    CleanValueSplit(a, c + b);
    CleanValueSplit(c, b);
    Assoc(CleanValue(a), CleanValue(c), CleanValue(b));
    CleanValueOneRun(m, w);
  }

  lemma CleanValueOneRun(m: nat, w: Wildcard)
    ensures CleanValue(Backslashes(m) + [w.Symbol()]) == if m % 2 == 0 then Replacement(m, w) else Backslashes(m) + [w.Symbol()]
  {
    var c := Backslashes(m) + [w.Symbol()];
    RunThen(m, [w.Symbol()]);
    EscapedStageOneRun(m, w);
    CleanValueStages(c);
    var other := if w.Star? then Question else Star;
    assert other.Symbol() !in c;
    TranslateOneChunk(c, w);
    TranslateWithoutSymbol(c, other);
    ReplacementChars(m, w, other.Symbol());
    TranslateWithoutSymbol(TranslateChunk(c, w), other);
  }

  /** Steps 1 to 3 leave a run of backslashes before a rule wildcard alone. */
  lemma EscapedStageOneRun(m: nat, w: Wildcard)
    ensures EscapedStage(Backslashes(m) + [w.Symbol()]) == Backslashes(m) + [w.Symbol()]
  {
    var c := Backslashes(m) + [w.Symbol()];
    RunThen(m, [w.Symbol()]);
    assert ChunkLen(c) == |c|;
    DoubleLoneOneChunk(c);
    assert DoubleLoneChunk(c) == c;
    assert '_' !in c && '%' !in c;
    EscapeSqlWildcardsWithout(c);
  }

  /** A lone backslash (a non-backslash or the start before it; the end, or a character
      other than a backslash, `*` or `?`, after it) comes out as four backslashes, and
      nothing around it changes. */
  lemma CleanValueLoneBackslash(a: string, b: string)
    requires EndsClean(a)
    requires |b| == 0 || (b[0] != '\\' && b[0] != '*' && b[0] != '?')
    ensures CleanValue(a + "\\" + b) == CleanValue(a) + FourBackslashes + CleanValue(b)
  {
    if |b| == 0 {
      assert a + "\\" + b == a + "\\";
      CleanValueSplit(a, "\\");
      CleanValueLoneAtEnd();
      assert CleanValue(b) == [];
    } else {
      var x := b[0];
      var r := b[1..];
      var p := "\\" + [x];
      assert b == [x] + r;
      Assoc(a, "\\", [x] + r);
      Assoc("\\", [x], r);
      assert p[|p| - 1] == x;
      CleanValueSplit(a, p + r);
      CleanValueSplit(p, r);
      CleanValueSplit([x], r);
      CleanValueLoneBefore(x);
      Assoc(CleanValue(a), FourBackslashes + CleanValue([x]), CleanValue(r));
      Assoc(FourBackslashes, CleanValue([x]), CleanValue(r));
      Assoc(CleanValue(a), FourBackslashes, CleanValue([x]) + CleanValue(r));
    }
  }

  lemma CleanValueLoneAtEnd()
    ensures CleanValue("\\") == FourBackslashes
  {
    CleanValueWithoutRuleWildcards("\\");
    DoubleLoneQuadruplesAtEnd("");
    assert "" + "\\" == "\\";
    assert DoubleLoneBackslashes("") == "";
    assert DoubleLoneBackslashes("\\") == FourBackslashes;
    EscapeSqlWildcardsWithout(FourBackslashes);
    assert EscapedStage("\\") == EscapeSqlWildcards(FourBackslashes);
  }

  lemma CleanValueLoneBefore(x: char)
    requires x != '\\' && x != '*' && x != '?'
    ensures CleanValue("\\" + [x]) == FourBackslashes + CleanValue([x])
  {
    var p := "\\" + [x];
    CleanValueWithoutRuleWildcards(p);
    CleanValueWithoutRuleWildcards([x]);
    DoubleLonePairChunk(x);
    assert p == ['\\', x];
    DoubleLoneSingleChunk(x);
    EscapeSqlWildcardsConcat(FourBackslashes, [x]);
    EscapeSqlWildcardsWithout(FourBackslashes);
  }

  // ---------------------------------------------------------------------------
  // The generator's wildcard test (line 117) on escaped text.
  // ---------------------------------------------------------------------------

  /** The pattern of line 117 matches at `i`: a backslash followed by `*`, `?` or a
      backslash, or one of `* ? _ %`. */
  predicate WildcardAt(t: string, i: nat)
    requires i < |t|
  {
    || (t[i] == '\\' && i + 1 < |t| && (t[i + 1] == '*' || t[i + 1] == '?' || t[i + 1] == '\\'))
    || t[i] == '*' || t[i] == '?' || t[i] == '_' || t[i] == '%'
  }

  /** `re.search` of that pattern finds something. */
  predicate HasWildcard(t: string) {
    exists i :: 0 <= i < |t| && WildcardAt(t, i)
  }

  lemma HasWildcardLeft(x: string, y: string)
    requires HasWildcard(x)
    ensures HasWildcard(x + y)
  {
    var i :| 0 <= i < |x| && WildcardAt(x, i);
    if i + 1 < |x| {
      assert (x + y)[i + 1] == x[i + 1];
    }
    assert (x + y)[i] == x[i];
    assert WildcardAt(x + y, i);
  }

  lemma HasWildcardRight(x: string, y: string)
    requires HasWildcard(y)
    ensures HasWildcard(x + y)
  {
    var i :| 0 <= i < |y| && WildcardAt(y, i);
    if i + 1 < |y| {
      assert (x + y)[|x| + i + 1] == y[i + 1];
    }
    assert (x + y)[|x| + i] == y[i];
    assert WildcardAt(x + y, |x| + i);
  }

  /** A match never straddles a point after a non-backslash. */
  lemma HasWildcardSplit(x: string, y: string)
    requires EndsClean(x)
    requires HasWildcard(x + y)
    ensures HasWildcard(x) || HasWildcard(y)
  {
    var i :| 0 <= i < |x + y| && WildcardAt(x + y, i);
    if i < |x| {
      assert (x + y)[i] == x[i];
      if i + 1 < |x| {
        assert (x + y)[i + 1] == x[i + 1];
      }
      assert (x + y)[|x| - 1] == x[|x| - 1];
      assert WildcardAt(x, i);
    } else {
      assert (x + y)[i] == y[i - |x|];
      if i + 1 < |x + y| {
        assert (x + y)[i + 1] == y[i - |x| + 1];
      }
      assert WildcardAt(y, i - |x|);
    }
  }

  lemma HasWildcardAtStart(x: string, y: string)
    requires |x| > 0 && WildcardAt(x, 0)
    ensures HasWildcard(x + y)
  {
    HasWildcardLeft(x, y);
  }

  lemma HasWildcardTail(s: string)
    requires HasWildcard(s) && !WildcardAt(s, 0)
    ensures HasWildcard(s[1..])
  {
    var i :| 0 <= i < |s| && WildcardAt(s, i);
    assert s[1..][i - 1] == s[i];
    if i + 1 < |s| {
      assert s[1..][i] == s[i + 1];
    }
    assert WildcardAt(s[1..], i - 1);
  }

  /** Anything the wildcard test finds involves a character `cleanValue` acts on. */
  lemma WildcardIsSpecial(s: string)
    ensures HasWildcard(s) ==> Special(s)
  {
    if HasWildcard(s) {
      var i :| 0 <= i < |s| && WildcardAt(s, i);
      assert s[i] in s;
    }
  }

  /** Step 1 leaves something for the wildcard test in a chunk holding a character it acts on. */
  lemma DoubleLoneChunkMarks(c: string)
    requires |c| > 0 && ChunkLen(c) == |c|
    requires Special(c)
    ensures HasWildcard(DoubleLoneChunk(c))
  {
    var k := RunLen(c);
    var out := DoubleLoneChunk(c);
    if k >= 2 {
      RunIsBackslashes(c, 0);
      RunIsBackslashes(c, 1);
      assert WildcardAt(out, 0);
    } else if k == 1 {
      RunIsBackslashes(c, 0);
      if out == c {
        assert WildcardAt(out, 1);
      } else {
        assert out[0] == FourBackslashes[0] && out[1] == FourBackslashes[1];
        assert WildcardAt(out, 0);
      }
    } else {
      assert c == [c[0]];
      assert WildcardAt(out, 0);
    }
  }

  lemma {:induction false} DoubleLoneMarks(s: string)
    requires Special(s)
    ensures HasWildcard(DoubleLoneBackslashes(s))
    decreases |s|
  {
    var n := ChunkLen(s);
    var c := s[..n];
    ChunkAlone(s);
    assert s == c + s[n..];
    if Special(s[n..]) {
      DoubleLoneMarks(s[n..]);
      HasWildcardRight(DoubleLoneChunk(c), DoubleLoneBackslashes(s[n..]));
    } else {
      DoubleLoneChunkMarks(c);
      HasWildcardLeft(DoubleLoneChunk(c), DoubleLoneBackslashes(s[n..]));
    }
  }

  lemma {:induction false} EscapeSqlWildcardsMarks(s: string)
    requires HasWildcard(s)
    ensures HasWildcard(EscapeSqlWildcards(s))
    decreases |s|
  {
    var x := if s[0] == '_' || s[0] == '%' then ['\\', s[0]] else [s[0]];
    var r := s[1..];
    var e := EscapeSqlWildcards(r);
    assert EscapeSqlWildcards(s) == x + e;
    if WildcardAt(s, 0) {
      if s[0] == '\\' {
        assert r[0] == s[1];
        assert e[0] == r[0];
        assert (x + e)[1] == e[0];
        assert WildcardAt(x + e, 0);
      } else {
        assert (x + e)[|x| - 1] == s[0];
        assert WildcardAt(x + e, |x| - 1);
      }
    } else {
      HasWildcardTail(s);
      EscapeSqlWildcardsMarks(r);
      HasWildcardRight(x, e);
    }
  }

  lemma TranslateChunkMarks(c: string, w: Wildcard)
    requires |c| > 0
    requires HasWildcard(c)
    ensures HasWildcard(TranslateChunk(c, w))
  {
    if ChunkMatches(c, w) {
      var out := Replacement(RunLen(c), w);
      assert WildcardAt(out, |out| - 1);
    }
  }

  lemma {:induction false} TranslateMarks(s: string, w: Wildcard)
    requires HasWildcard(s)
    ensures HasWildcard(TranslateWildcard(s, w))
    decreases |s|
  {
    var n := ChunkLen(s);
    var c := s[..n];
    var rest := TranslateWildcard(s[n..], w);
    assert s == c + s[n..];
    if n < |s| {
      assert c[n - 1] == s[RunLen(s)];
      HasWildcardSplit(c, s[n..]);
    } else {
      assert c == s;
    }
    if HasWildcard(c) {
      TranslateChunkMarks(c, w);
      HasWildcardLeft(TranslateChunk(c, w), rest);
    } else {
      TranslateMarks(s[n..], w);
      HasWildcardRight(TranslateChunk(c, w), rest);
    }
  }

  /** The wildcard test finds something in the escaped value exactly when the original
      value holds one of `\ _ % * ?`: even an escaped `\_` or `\%` counts. */
  lemma CleanValueHasWildcard(s: string)
    ensures HasWildcard(CleanValue(s)) <==> Special(s)
  {
    if Special(s) {
      DoubleLoneMarks(s);
      EscapeSqlWildcardsMarks(DoubleLoneBackslashes(s));
      CleanValueStages(s);
      TranslateMarks(EscapedStage(s), Star);
      TranslateMarks(TranslateWildcard(EscapedStage(s), Star), Question);
    } else {
      CleanValueUntouched(s);
      WildcardIsSpecial(s);
    }
  }

  // ---------------------------------------------------------------------------
  // The escaper between plain texts.
  // ---------------------------------------------------------------------------

  /** Text with none of `\ _ % * ?` does not end in a backslash. */
  lemma PlainEndsClean(a: string)
    requires !Special(a)
    ensures EndsClean(a)
  {
    if |a| > 0 {
      assert a[|a| - 1] in a;
    }
  }

  /** Between plain texts, a bare rule wildcard becomes its SQL wildcard and an escaped one stays as it is. */
  lemma CleanValuePlainWildcard(a: string, b: string, w: Wildcard)
    requires !Special(a) && !Special(b)
    ensures CleanValue(a + [w.Symbol()] + b) == a + [w.SqlSymbol()] + b
    ensures CleanValue(a + "\\" + [w.Symbol()] + b) == a + "\\" + [w.Symbol()] + b
  {
    CleanValueBareWildcard(a, b, w);
    CleanValueEscapedWildcard(a, b, w);
  }

  lemma CleanValueBareWildcard(a: string, b: string, w: Wildcard)
    requires !Special(a) && !Special(b)
    ensures CleanValue(a + [w.Symbol()] + b) == a + [w.SqlSymbol()] + b
  {
    PlainEndsClean(a);
    CleanValueUntouched(a);
    CleanValueUntouched(b);
    CleanValueWildcardRun(a, 0, b, w);
    assert a + Backslashes(0) == a;
    assert Replacement(0, w) == [w.SqlSymbol()];
  }

  lemma CleanValueEscapedWildcard(a: string, b: string, w: Wildcard)
    requires !Special(a) && !Special(b)
    ensures CleanValue(a + "\\" + [w.Symbol()] + b) == a + "\\" + [w.Symbol()] + b
  {
    var one := Backslashes(1);
    assert one == "\\";
    CleanValuePlainOddRun(a, 1, b, w);
    Assoc(a, one, [w.Symbol()]);
  }

  /** Between plain texts, an odd run of backslashes before a rule wildcard is kept. */
  lemma CleanValuePlainOddRun(a: string, m: nat, b: string, w: Wildcard)
    requires !Special(a) && !Special(b)
    requires m % 2 == 1
    ensures CleanValue(a + Backslashes(m) + [w.Symbol()] + b) == a + (Backslashes(m) + [w.Symbol()]) + b
  {
    PlainEndsClean(a);
    CleanValueUntouched(a);
    CleanValueUntouched(b);
    CleanValueWildcardRun(a, m, b, w);
  }

  /** Between plain texts, a single backslash becomes four, as in `C:\Windows`; a wildcard
      before the backslash, as in `*\cmd.exe`, is the case of `CleanValueLoneBackslash`. */
  lemma CleanValuePlainBackslash(a: string, b: string)
    requires !Special(a) && !Special(b)
    ensures CleanValue(a + "\\" + b) == a + FourBackslashes + b
  {
    PlainEndsClean(a);
    CleanValueUntouched(a);
    CleanValueUntouched(b);
    if |b| > 0 {
      assert b[0] in b;
    }
    CleanValueLoneBackslash(a, b);
  }

  /** Between plain texts, an even run of two or more backslashes before a rule wildcard
      shrinks to one pair, and the wildcard is translated. */
  lemma CleanValuePlainCollapse(a: string, m: nat, b: string, w: Wildcard)
    requires !Special(a) && !Special(b)
    requires m >= 1
    ensures CleanValue(a + Backslashes(2 * m) + [w.Symbol()] + b) == a + Pair + [w.SqlSymbol()] + b
  {
    PlainEndsClean(a);
    CleanValueUntouched(a);
    CleanValueUntouched(b);
    assert (2 * m) % 2 == 0;
    CleanValueWildcardRun(a, 2 * m, b, w);
    assert Replacement(2 * m, w) == Pair + [w.SqlSymbol()];
    Assoc(a, Pair, [w.SqlSymbol()]);
  }
}

=== FILE: fts_guard.dfy ===
/** The full-text-search guard (bq-sql.py lines 257-259 and 279-311): a value with no
    field, found among the items of an AND, OR or NOT that the guard walks into, means
    the rule needs a full-text search, which the backend refuses. */
module FtsGuard {

  import opened Wrappers
  import opened Tree

  /** The items `_evaluateCondition` iterates over: the children of an AND or OR, the one
      child of a NOT. */
  function Items(cond: Node): (r: seq<Node>)
    ensures cond.Not? ==> r == [cond.child]
    ensures cond.And? || cond.Or? ==> r == cond.children
    ensures !(cond.And? || cond.Or? || cond.Not?) ==> r == []
  {
    match cond
    case And(cs) => cs
    case Or(cs) => cs
    case Not(c) => [c]
    case _ => []
  }

  /** `_recursiveFtsSearch`: a value is a search, a field/value pair is not, a
      subexpression is looked into, and anything else is a logic error. */
  function FtsSearch(n: Node): Result<bool, Error> {
    match n
    case Bare(_) => Ok(true)
    case MapItem(_, _) => Ok(false)
    case Sub(x) => SubSearch(x)
    case _ => Err(SearchLogic)
  }

  /** The body of a subexpression: a further subexpression is searched, an AND, OR or NOT
      is evaluated, and anything else (the type test is exact, so a null test is not a
      NOT here) falls off the end of the Python function, whose `None` counts as false. */
  function SubSearch(x: Node): Result<bool, Error>
    decreases x
  {
    match x
    case Sub(y) => SubSearch(y)
    case And(_) => Evaluate(x, 0, false)
    case Or(_) => Evaluate(x, 0, false)
    case Not(_) => Evaluate(x, 0, false)
    case _ => Ok(false)
  }

  /** `_evaluateCondition` on `cond`, resuming at item `i` with `found` the `any` of the
      results collected so far: a value returns true at once; a subexpression, a NOT and
      a field/value pair add a result; an AND or OR among the items adds nothing. The
      null and not-null tests are NOT conditions for `isinstance`, so the scan evaluates
      them as conditions, and their type then raises the logic error. An error from an
      item propagates. */
  function Evaluate(cond: Node, i: nat, found: bool): Result<bool, Error>
    requires cond.And? || cond.Or? || cond.Not?
    requires i <= |Items(cond)|
    decreases cond, |Items(cond)| - i
  {
    if i == |Items(cond)| then Ok(found)
    else
      var e := Items(cond)[i];
      assert e < cond by {
        if cond.Not? {
          assert e == cond.child;
        } else {
          assert e == cond.children[i];
        }
      }
      match e
      case Bare(_) => Ok(true)
      case Sub(y) =>
        var s :- SubSearch(y);
        Evaluate(cond, i + 1, found || s)
      case Not(_) =>
        var s :- Evaluate(e, 0, false);
        Evaluate(cond, i + 1, found || s)
      case NullValue(_) => Err(SearchLogic)
      case NotNullValue(_) => Err(SearchLogic)
      case MapItem(_, _) => Evaluate(cond, i + 1, found)
      case And(_) => Evaluate(cond, i + 1, found)
      case Or(_) => Evaluate(cond, i + 1, found)
  }

  /** `checkFTS`: a search found is refused; a logic error propagates. */
  function CheckFts(n: Node): Result<(), Error> {
    var found :- FtsSearch(n);
    if found then Err(FullTextSearch) else Ok(())
  }

  // ---------------------------------------------------------------------------
  // A reference: which values the guard can see.
  // ---------------------------------------------------------------------------

  /** An item that exposes a value: the value itself, a subexpression whose body exposes
      one, or a NOT whose child does. */
  predicate ItemExposes(e: Node)
    decreases e, 1
  {
    match e
    case Bare(_) => true
    case Sub(y) => BodyExposes(y)
    case Not(c) => ItemExposes(c)
    case _ => false
  }

  /** A subexpression body that exposes a value: through further subexpressions to an
      AND, OR or NOT with an exposing item. */
  predicate BodyExposes(x: Node)
    decreases x, 2
  {
    match x
    case Sub(y) => BodyExposes(y)
    case And(cs) => exists i :: 0 <= i < |cs| && ItemExposes(cs[i])
    case Or(cs) => exists i :: 0 <= i < |cs| && ItemExposes(cs[i])
    case Not(c) => ItemExposes(c)
    case _ => false
  }

  /** No item of `cs` from `i` up to (not including) `j` is a value, so a scan that
      starts at `i` is not cut short before item `j`. */
  predicate NoValueBetween(cs: seq<Node>, i: int, j: int) {
    forall k :: i <= k < j && 0 <= k < |cs| ==> !cs[k].Bare?
  }

  /** An item whose evaluation raises: a null or not-null test, a subexpression whose
      body raises, or a NOT whose child does. */
  predicate ItemFails(e: Node)
    decreases e, 1
  {
    match e
    case NullValue(_) => true
    case NotNullValue(_) => true
    case Sub(y) => BodyFails(y)
    case Not(c) => ItemFails(c)
    case _ => false
  }

  /** A subexpression body whose search raises: through further subexpressions to an
      AND, OR or NOT that reaches a failing item before any value. */
  predicate BodyFails(x: Node)
    decreases x, 2
  {
    match x
    case Sub(y) => BodyFails(y)
    case And(cs) => exists j :: 0 <= j < |cs| && ItemFails(cs[j]) && NoValueBetween(cs, 0, j)
    case Or(cs) => exists j :: 0 <= j < |cs| && ItemFails(cs[j]) && NoValueBetween(cs, 0, j)
    case Not(c) => ItemFails(c)
    case _ => false
  }

  /** The scan of `cond` from item `i` reaches a failing item before any value. */
  predicate ScanFails(cond: Node, i: nat) {
    exists j :: i <= j < |Items(cond)| && ItemFails(Items(cond)[j]) && NoValueBetween(Items(cond), i, j)
  }

  /** Stepping over an item that is neither a value nor failing changes neither whether
      the scan fails nor whether it finds an exposing item. */
  lemma ScanStep(cond: Node, i: nat)
    requires i < |Items(cond)|
    requires !Items(cond)[i].Bare? && !ItemFails(Items(cond)[i])
    ensures ScanFails(cond, i) <==> ScanFails(cond, i + 1)
  {
    var cs := Items(cond);
    if ScanFails(cond, i) {
      var j :| i <= j < |cs| && ItemFails(cs[j]) && NoValueBetween(cs, i, j);
      assert j != i;
      assert NoValueBetween(cs, i + 1, j);
    }
    if ScanFails(cond, i + 1) {
      var j :| i + 1 <= j < |cs| && ItemFails(cs[j]) && NoValueBetween(cs, i + 1, j);
      assert NoValueBetween(cs, i, j);
    }
  }

  /** The scan of a NOT fails exactly when its child fails. */
  lemma ScanFailsNot(x: Node)
    requires x.Not?
    ensures ScanFails(x, 0) <==> ItemFails(x.child)
  {
    assert Items(x) == [x.child];
    if ItemFails(x.child) {
      assert NoValueBetween(Items(x), 0, 0);
    }
  }

  /** The in-order scan with its early return raises exactly when it reaches a failing
      item before any value, and otherwise finds exactly the exposing items from `i` on. */
  lemma {:induction false} EvaluateFinds(cond: Node, i: nat, found: bool)
    requires cond.And? || cond.Or? || cond.Not?
    requires i <= |Items(cond)|
    ensures Evaluate(cond, i, found).Err? <==> ScanFails(cond, i)
    ensures Evaluate(cond, i, found).Err? ==> Evaluate(cond, i, found).error == SearchLogic
    ensures Evaluate(cond, i, found).Ok? ==>
      (Evaluate(cond, i, found).value <==> found || exists j :: i <= j < |Items(cond)| && ItemExposes(Items(cond)[j]))
    decreases cond, |Items(cond)| - i
  {
    var cs := Items(cond);
    if i < |cs| {
      var e := cs[i];
      assert e < cond by {
        if cond.Not? {
          assert e == cond.child;
        } else {
          assert e == cond.children[i];
        }
      }
      assert NoValueBetween(cs, i, i);
      match e
      case Bare(_) =>
        assert !ScanFails(cond, i);
      case Sub(y) =>
        SubSearchFinds(y);
        if SubSearch(y).Ok? {
          ScanStep(cond, i);
          EvaluateFinds(cond, i + 1, found || SubSearch(y).value);
        }
      case Not(c) =>
        EvaluateFinds(e, 0, false);
        ScanFailsNot(e);
        if Evaluate(e, 0, false).Ok? {
          ScanStep(cond, i);
          EvaluateFinds(cond, i + 1, found || Evaluate(e, 0, false).value);
        }
      case NullValue(_) =>
      case NotNullValue(_) =>
      case MapItem(_, _) =>
        ScanStep(cond, i);
        EvaluateFinds(cond, i + 1, found);
      case And(_) =>
        ScanStep(cond, i);
        EvaluateFinds(cond, i + 1, found);
      case Or(_) =>
        ScanStep(cond, i);
        EvaluateFinds(cond, i + 1, found);
    }
  }

  /** The search of a subexpression body raises exactly when the body fails, and
      otherwise agrees with the reference of an exposed value. */
  lemma {:induction false} SubSearchFinds(x: Node)
    ensures SubSearch(x).Err? <==> BodyFails(x)
    ensures SubSearch(x).Err? ==> SubSearch(x).error == SearchLogic
    ensures SubSearch(x).Ok? ==> (SubSearch(x).value <==> BodyExposes(x))
    decreases x
  {
    match x
    case Sub(y) =>
      SubSearchFinds(y);
    case And(cs) =>
      EvaluateFinds(x, 0, false);
    case Or(cs) =>
      EvaluateFinds(x, 0, false);
    case Not(c) =>
      EvaluateFinds(x, 0, false);
      ScanFailsNot(x);
    case MapItem(_, _) =>
    case Bare(_) =>
    case NullValue(_) =>
    case NotNullValue(_) =>
  }

  /** The search raises the logic error exactly on a top node that is neither a value, a
      field/value pair nor a subexpression, or on a subexpression whose body fails;
      otherwise it reports exactly whether a value is exposed. */
  lemma FtsSearchFinds(n: Node)
    ensures FtsSearch(n).Err? <==> !(n.Bare? || n.MapItem? || n.Sub?) || ItemFails(n)
    ensures FtsSearch(n).Err? ==> FtsSearch(n).error == SearchLogic
    ensures FtsSearch(n).Ok? ==> (FtsSearch(n).value <==> ItemExposes(n))
  {
    if n.Sub? {
      SubSearchFinds(n.child);
    }
  }

  /** `checkFTS` accepts exactly the subexpressions and field/value pairs that neither
      fail nor expose a value; it refuses an exposed value with the full-text error, and
      any other top node or a failing subexpression with the logic error. */
  lemma CheckFtsOutcome(n: Node)
    ensures CheckFts(n).Ok? <==> (n.Sub? || n.MapItem?) && !ItemFails(n) && !ItemExposes(n)
    ensures CheckFts(n).Err? && (n.Bare? || n.MapItem? || n.Sub?) && !ItemFails(n) ==> CheckFts(n).error == FullTextSearch
    ensures CheckFts(n).Err? && (!(n.Bare? || n.MapItem? || n.Sub?) || ItemFails(n)) ==> CheckFts(n).error == SearchLogic
  {
    FtsSearchFinds(n);
  }

  /** A value beside a field/value pair under an OR is refused; the same value as the
      value of the pair is accepted. */
  lemma BareBesideMapItem(field: string, v: Value)
    ensures CheckFts(Sub(Or([MapItem(field, v), Bare(v)]))) == Err(FullTextSearch)
    ensures CheckFts(Sub(Or([MapItem(field, v)]))) == Ok(())
  {
    var cs := [MapItem(field, v), Bare(v)];
    assert ItemExposes(cs[1]);
    assert BodyExposes(Or(cs));
    assert !ItemFails(cs[0]) && !ItemFails(cs[1]);
    assert forall j :: 0 <= j < |cs| ==> !ItemFails(cs[j]);
    assert !BodyFails(Or(cs));
    CheckFtsOutcome(Sub(Or(cs)));
    var ds := [MapItem(field, v)];
    assert !ItemExposes(ds[0]) && !ItemFails(ds[0]);
    assert forall i :: 0 <= i < |ds| ==> ds[i] == MapItem(field, v);
    assert !BodyFails(Or(ds));
    CheckFtsOutcome(Sub(Or(ds)));
  }

  /** A null test in the rule's parentheses makes the guard raise the logic error,
      unless a value comes first in the same scan, which returns before the test is
      reached. */
  lemma NullTestInScan(field: string, v: Value, f: string)
    ensures CheckFts(Sub(Sub(And([MapItem(field, v), NullValue(f)])))) == Err(SearchLogic)
    ensures CheckFts(Sub(And([NotNullValue(f), Bare(v)]))) == Err(SearchLogic)
    ensures CheckFts(Sub(And([Bare(v), NullValue(f)]))) == Err(FullTextSearch)
  {
    var cs := [MapItem(field, v), NullValue(f)];
    assert ItemFails(cs[1]) && NoValueBetween(cs, 0, 1);
    assert BodyFails(And(cs));
    assert ItemFails(Sub(Sub(And(cs))));
    CheckFtsOutcome(Sub(Sub(And(cs))));
    var ds := [NotNullValue(f), Bare(v)];
    assert ItemFails(ds[0]) && NoValueBetween(ds, 0, 0);
    assert BodyFails(And(ds));
    CheckFtsOutcome(Sub(And(ds)));
    var es := [Bare(v), NullValue(f)];
    assert ItemExposes(es[0]) && !ItemFails(es[0]);
    assert !NoValueBetween(es, 0, 1);
    assert forall j :: 0 <= j < |es| ==> !(ItemFails(es[j]) && NoValueBetween(es, 0, j));
    assert !BodyFails(And(es)) && BodyExposes(And(es));
    CheckFtsOutcome(Sub(And(es)));
  }

  /** The guard's blind spot: an AND or OR directly among the items of another is not
      looked into, so a value inside it goes unnoticed unless parentheses separate the
      two. */
  lemma NestedJunctionBlindSpot(v: Value)
    ensures CheckFts(Sub(And([And([Bare(v)])]))) == Ok(())
    ensures CheckFts(Sub(And([Sub(And([Bare(v)]))]))) == Err(FullTextSearch)
  {
    var inner := And([Bare(v)]);
    assert [inner][0] == inner;
    assert !ItemExposes(inner) && !ItemFails(inner);
    assert forall i :: 0 <= i < |[inner]| ==> [inner][i] == inner;
    assert !BodyExposes(And([inner])) && !BodyFails(And([inner]));
    CheckFtsOutcome(Sub(And([inner])));
    assert ItemExposes([Bare(v)][0]);
    assert !ItemFails([Bare(v)][0]);
    assert forall i :: 0 <= i < |[Bare(v)]| ==> [Bare(v)][i] == Bare(v);
    assert BodyExposes(inner);
    assert !BodyFails(inner);
    var outer := [Sub(inner)];
    assert ItemExposes(outer[0]);
    assert !ItemFails(outer[0]);
    assert forall i :: 0 <= i < |outer| ==> outer[i] == Sub(inner);
    assert BodyExposes(And(outer)) && !BodyFails(And(outer));
    CheckFtsOutcome(Sub(And(outer)));
  }
}

=== FILE: generator.dfy ===
/** The node generator (bq-sql.py lines 77-155): each node becomes a text fragment,
    nothing (`None`, no constraint), or an error. The base class's `generateNode`
    dispatch is a match on the node's constructor; `fieldNameMapping` is the identity. */
module Generator {

  import opened Wrappers
  import opened Text
  import opened Escape
  import opened Tree

  const AndToken: string := " AND "
  const OrToken: string := " OR "
  const NotToken: string := "NOT "

  /** A text in double quotes. */
  function Quoted(t: string): string {
    "\"" + t + "\""
  }

  /** `generateValueNode`: the escaped text of `str(v)` in double quotes. */
  function ValueNode(v: Value): string {
    Quoted(CleanValue(StrOf(v)))
  }

  function ValueNodes(items: seq<Value>): (r: seq<string>)
    ensures |r| == |items|
    ensures forall i :: 0 <= i < |items| ==> r[i] == ValueNode(items[i])
  {
    seq(|items|, i requires 0 <= i < |items| => ValueNode(items[i]))
  }

  /** `generateListNode`: every item must be a string or an integer; the rendered items,
      separated by `, `, in parentheses. */
  function ListNode(items: seq<Value>): Result<string, Error> {
    if forall i :: 0 <= i < |items| ==> IsScalar(items[i]) then Ok(ListText(items))
    else Err(ListItemType)
  }

  function ListText(items: seq<Value>): string {
    "(" + Join(", ", ValueNodes(items)) + ")"
  }

  /** The base class's dispatch for a value: a list goes to the list renderer, a string
      or an integer to the value renderer. */
  function GenerateValue(v: Value): Result<string, Error> {
    if v.List? then ListNode(v.items) else Ok(ValueNode(v))
  }

  /** `generateMapItemListNode`: one case-insensitive LIKE per item, joined with OR. */
  function MapItemListNode(key: string, items: seq<Value>): string {
    "(" + Join(" OR ", LikeAll(key, items)) + ")"
  }

  function LikeAll(key: string, items: seq<Value>): (r: seq<string>)
    ensures |r| == |items|
    ensures forall i :: 0 <= i < |items| ==> r[i] == "LOWER(" + key + ") LIKE " + ValueNode(items[i])
  {
    seq(|items|, i requires 0 <= i < |items| => "LOWER(" + key + ") LIKE " + ValueNode(items[i]))
  }

  /** `generateMapItemNode`: the value is rendered first, then the first matching shape wins. */
  function MapItemNode(field: string, v: Value): Result<string, Error> {
    var generated :- GenerateValue(v);
    var wildcard := HasWildcard(generated);
    if ',' in generated && generated[0] == '(' && generated[|generated| - 1] == ')' && !wildcard then
      Ok(field + " IN " + generated)
    else if HasSubstring(field, "LENGTH") then
      Ok("(" + field + " " + StrOf(v) + ")")
    else if v.List? then
      Ok(MapItemListNode(field, v.items))
    else if wildcard then
      Ok("LOWER(" + field + ") LIKE " + generated)
    else
      Ok(field + " = " + generated)
  }

  /** The texts of the children that produced one, in order. */
  function Present(gs: seq<Option<string>>): seq<string> {
    if |gs| == 0 then [] else (if gs[0].Some? then [gs[0].value] else []) + Present(gs[1..])
  }

  /** `sep.join(filtered)` when something is left, otherwise `None`. */
  function JoinPresent(sep: string, gs: seq<Option<string>>): Option<string> {
    if |Present(gs)| > 0 then Some(Join(sep, Present(gs))) else None
  }

  /** `generateNode` on a condition tree. */
  function Generate(n: Node): Result<Option<string>, Error>
    decreases n
  {
    match n
    case And(cs) =>
      var gs :- GenerateAll(cs);
      Ok(JoinPresent(AndToken, gs))
    case Or(cs) =>
      var gs :- GenerateAll(cs);
      Ok(JoinPresent(OrToken, gs))
    case Not(c) =>
      var g :- Generate(c);
      Ok(if g.Some? then Some(NotToken + g.value) else None)
    case Sub(c) =>
      var g :- Generate(c);
      Ok(if g.Some? && |g.value| > 0 then Some("(" + g.value + ")") else None)
    case MapItem(f, v) =>
      var t :- MapItemNode(f, v);
      Ok(Some(t))
    case NullValue(f) => Ok(Some("-" + f + "=*"))
    case NotNullValue(f) => Ok(Some(f + "=*"))
    case Bare(v) =>
      var t :- GenerateValue(v);
      Ok(Some(t))
  }

  /** The children of an AND or OR, generated in order; the first error wins. */
  function GenerateAll(cs: seq<Node>): (r: Result<seq<Option<string>>, Error>)
    ensures r.Ok? ==> |r.value| == |cs|
    decreases cs
  {
    if |cs| == 0 then Ok([])
    else
      var g :- Generate(cs[0]);
      var rest :- GenerateAll(cs[1..]);
      Ok([g] + rest)
  }

  // ---------------------------------------------------------------------------
  // AND and OR as a left fold over the children (lines 77-91).
  // ---------------------------------------------------------------------------

  /** Folding one more child into an AND or OR: an error from an earlier child wins; an
      absent child changes nothing; otherwise the texts are joined with `sep`. */
  function Combine(sep: string, acc: Result<Option<string>, Error>, next: Result<Option<string>, Error>): Result<Option<string>, Error> {
    if acc.Err? then acc
    else if next.Err? then next
    else if next.value.None? then acc
    else if acc.value.None? then next
    else Ok(Some(acc.value.value + sep + next.value.value))
  }

  /** Reference for AND/OR: the children folded in from the left, starting from `None`. */
  function Fold(sep: string, cs: seq<Node>): Result<Option<string>, Error>
    decreases |cs|
  {
    if |cs| == 0 then Ok(None) else Combine(sep, Fold(sep, cs[..|cs| - 1]), Generate(cs[|cs| - 1]))
  }

  lemma {:induction false} PresentSnoc(gs: seq<Option<string>>, g: Option<string>)
    ensures Present(gs + [g]) == Present(gs) + (if g.Some? then [g.value] else [])
    decreases |gs|
  {
    if |gs| == 0 {
      assert gs + [g] == [g];
      assert [g][1..] == [];
    } else {
      assert (gs + [g])[1..] == gs[1..] + [g];
      PresentSnoc(gs[1..], g);
      var h := if gs[0].Some? then [gs[0].value] else [];
      Assoc(h, Present(gs[1..]), if g.Some? then [g.value] else []);
    }
  }

  lemma {:induction false} GenerateAllSnoc(cs: seq<Node>, c: Node)
    ensures GenerateAll(cs + [c]) ==
      if GenerateAll(cs).Err? then Err(GenerateAll(cs).error)
      else if Generate(c).Err? then Err(Generate(c).error)
      else Ok(GenerateAll(cs).value + [Generate(c).value])
    decreases |cs|
  {
    if |cs| == 0 {
      assert cs + [c] == [c];
      assert [c][1..] == [];
      if Generate(c).Ok? {
        assert [Generate(c).value] + [] == [] + [Generate(c).value];
      }
    } else {
      assert (cs + [c])[0] == cs[0];
      assert (cs + [c])[1..] == cs[1..] + [c];
      GenerateAllSnoc(cs[1..], c);
      if GenerateAll(cs).Ok? && Generate(c).Ok? {
        var g := Generate(cs[0]).value;
        Assoc([g], GenerateAll(cs[1..]).value, [Generate(c).value]);
      }
    }
  }

  /** AND and OR generate exactly the left fold of `Combine` over their children. */
  lemma {:induction false} JunctionIsFold(sep: string, cs: seq<Node>)
    ensures (var gs := GenerateAll(cs); if gs.Err? then Err(gs.error) else Ok(JoinPresent(sep, gs.value))) == Fold(sep, cs)
    decreases |cs|
  {
    if |cs| > 0 {
      var init := cs[..|cs| - 1];
      var c := cs[|cs| - 1];
      assert cs == init + [c];
      JunctionIsFold(sep, init);
      GenerateAllSnoc(init, c);
      if GenerateAll(init).Ok? && Generate(c).Ok? {
        var gs := GenerateAll(init).value;
        var g := Generate(c).value;
        PresentSnoc(gs, g);
        assert GenerateAll(cs) == Ok(gs + [g]);
        assert Fold(sep, cs) == Combine(sep, Ok(JoinPresent(sep, gs)), Generate(c));
        if g.Some? && |Present(gs)| > 0 {
          JoinAppend(sep, Present(gs), g.value);
          assert Present(gs + [g]) == Present(gs) + [g.value];
        } else if g.Some? {
          assert Present(gs) + [g.value] == [g.value];
          assert Join(sep, [g.value]) == g.value;
        } else {
          assert Present(gs) + [] == Present(gs);
        }
      }
    }
  }

  /** AND joins the present children with ` AND `, in order, absent when none is present. */
  lemma AndIsFold(cs: seq<Node>)
    ensures Generate(And(cs)) == Fold(AndToken, cs)
  {
    JunctionIsFold(AndToken, cs);
  }

  /** OR joins the present children with ` OR `, in order, absent when none is present. */
  lemma OrIsFold(cs: seq<Node>)
    ensures Generate(Or(cs)) == Fold(OrToken, cs)
  {
    JunctionIsFold(OrToken, cs);
  }

  // ---------------------------------------------------------------------------
  // Which trees fail, which produce nothing, and that produced text is never empty.
  // ---------------------------------------------------------------------------

  /** A tree the generator accepts: every value under a field or bare is renderable. */
  predicate WellFormed(n: Node)
    decreases n
  {
    match n
    case And(cs) => forall i :: 0 <= i < |cs| ==> WellFormed(cs[i])
    case Or(cs) => forall i :: 0 <= i < |cs| ==> WellFormed(cs[i])
    case Not(c) => WellFormed(c)
    case Sub(c) => WellFormed(c)
    case MapItem(_, v) => RenderableValue(v)
    case Bare(v) => RenderableValue(v)
    case NullValue(_) => true
    case NotNullValue(_) => true
  }

  /** A tree that constrains nothing: built from AND, OR, NOT and parentheses alone, so
      every leaf is an empty AND or OR. */
  predicate Vacuous(n: Node)
    decreases n
  {
    match n
    case And(cs) => forall i :: 0 <= i < |cs| ==> Vacuous(cs[i])
    case Or(cs) => forall i :: 0 <= i < |cs| ==> Vacuous(cs[i])
    case Not(c) => Vacuous(c)
    case Sub(c) => Vacuous(c)
    case _ => false
  }

  /** Rendering a value fails exactly when it is a list holding a list. */
  lemma GenerateValueOutcome(v: Value)
    ensures GenerateValue(v).Err? <==> !RenderableValue(v)
    ensures GenerateValue(v).Err? ==> GenerateValue(v).error == ListItemType
    ensures GenerateValue(v).Ok? ==> |GenerateValue(v).value| >= 2
  {
  }

  /** A field/value pair fails exactly when its value is not renderable, and otherwise
      yields a non-empty text. */
  lemma MapItemOutcome(field: string, v: Value)
    ensures MapItemNode(field, v).Err? <==> !RenderableValue(v)
    ensures MapItemNode(field, v).Err? ==> MapItemNode(field, v).error == ListItemType
    ensures MapItemNode(field, v).Ok? ==> |MapItemNode(field, v).value| > 0
  {
    GenerateValueOutcome(v);
  }

  /** The generator fails exactly on trees that are not well formed, always with the
      list-item error; it yields `None` exactly on vacuous trees; and any text it yields
      is non-empty. */
  lemma {:induction false} GenerateOutcome(n: Node)
    ensures Generate(n).Err? <==> !WellFormed(n)
    ensures Generate(n).Err? ==> Generate(n).error == ListItemType
    ensures Generate(n).Ok? ==> (Generate(n).value.None? <==> Vacuous(n))
    ensures Generate(n).Ok? && Generate(n).value.Some? ==> |Generate(n).value.value| > 0
    decreases n
  {
    match n
    case And(cs) =>
      GenerateAllOutcome(cs);
      JunctionOutcome(AndToken, cs);
    case Or(cs) =>
      GenerateAllOutcome(cs);
      JunctionOutcome(OrToken, cs);
    case Not(c) =>
      GenerateOutcome(c);
    case Sub(c) =>
      GenerateOutcome(c);
    case MapItem(f, v) =>
      MapItemOutcome(f, v);
    case Bare(v) =>
      GenerateValueOutcome(v);
    case NullValue(_) =>
    case NotNullValue(_) =>
  }

  /** The AND/OR step of `GenerateOutcome`, once the children's outcomes are known. */
  lemma JunctionOutcome(sep: string, cs: seq<Node>)
    requires GenerateAll(cs).Ok? ==> (|Present(GenerateAll(cs).value)| == 0 <==> forall i :: 0 <= i < |cs| ==> Vacuous(cs[i]))
    requires GenerateAll(cs).Ok? ==> forall j :: 0 <= j < |Present(GenerateAll(cs).value)| ==> |Present(GenerateAll(cs).value)[j]| > 0
    ensures GenerateAll(cs).Ok? ==> (JoinPresent(sep, GenerateAll(cs).value).None? <==> forall i :: 0 <= i < |cs| ==> Vacuous(cs[i]))
    ensures GenerateAll(cs).Ok? && JoinPresent(sep, GenerateAll(cs).value).Some? ==> |JoinPresent(sep, GenerateAll(cs).value).value| > 0
  {
    if GenerateAll(cs).Ok? && |Present(GenerateAll(cs).value)| > 0 {
      JoinNonEmpty(sep, Present(GenerateAll(cs).value));
    }
  }

  /** The children fail exactly when one of them is not well formed; otherwise nothing is
      present exactly when every child is vacuous, and every present text is non-empty. */
  lemma {:induction false} GenerateAllOutcome(cs: seq<Node>)
    ensures GenerateAll(cs).Err? <==> exists i :: 0 <= i < |cs| && !WellFormed(cs[i])
    ensures GenerateAll(cs).Err? ==> GenerateAll(cs).error == ListItemType
    ensures GenerateAll(cs).Ok? ==> (|Present(GenerateAll(cs).value)| == 0 <==> forall i :: 0 <= i < |cs| ==> Vacuous(cs[i]))
    ensures GenerateAll(cs).Ok? ==> forall j :: 0 <= j < |Present(GenerateAll(cs).value)| ==> |Present(GenerateAll(cs).value)[j]| > 0
    decreases cs
  {
    if |cs| > 0 {
      GenerateOutcome(cs[0]);
      GenerateAllOutcome(cs[1..]);
      assert forall i :: 0 < i < |cs| ==> cs[i] == cs[1..][i - 1];
      if GenerateAll(cs).Ok? {
        var g := Generate(cs[0]).value;
        var rest := GenerateAll(cs[1..]).value;
        assert GenerateAll(cs).value == [g] + rest;
        assert ([g] + rest)[1..] == rest;
      }
    }
  }

  /** The not-null test renders as `field=*` and never fails; the null test is the same
      text behind a `-`. */
  lemma NullTemplates(f: string)
    ensures Generate(NotNullValue(f)) == Ok(Some(f + "=*"))
    ensures Generate(NullValue(f)) == Ok(Some("-" + Generate(NotNullValue(f)).value.value))
  {
    assert "-" + f + "=*" == "-" + (f + "=*");
  }

  /** NOT and parentheses pass an error or an absent child through; a present child is
      never empty, so parentheses always wrap it. */
  lemma WrapChild(c: Node)
    ensures Generate(c).Err? ==> Generate(Not(c)) == Generate(c) && Generate(Sub(c)) == Generate(c)
    ensures Generate(c) == Ok(None) ==> Generate(Not(c)) == Ok(None) && Generate(Sub(c)) == Ok(None)
    ensures Generate(c).Ok? && Generate(c).value.Some? ==>
      Generate(Not(c)) == Ok(Some(NotToken + Generate(c).value.value)) &&
      Generate(Sub(c)) == Ok(Some("(" + Generate(c).value.value + ")"))
  {
    GenerateOutcome(c);
  }

  // ---------------------------------------------------------------------------
  // The shape a field/value pair takes (lines 112-138).
  // ---------------------------------------------------------------------------

  /** Wrapping a text in two characters that are neither wildcards nor backslashes
      neither creates nor hides a wildcard match. */
  lemma Bracketed(o: char, t: string, c: char)
    requires o !in "\\*?_%" && c !in "\\*?_%"
    ensures HasWildcard([o] + t + [c]) <==> HasWildcard(t)
  {
    var w := [o] + t + [c];
    assert forall k :: 0 <= k < |t| ==> w[k + 1] == t[k];
    assert w[0] == o && w[|w| - 1] == c;
    if HasWildcard(w) {
      var i :| 0 <= i < |w| && WildcardAt(w, i);
      assert 1 <= i <= |t|;
      if i + 1 <= |t| {
        assert w[i + 1] == t[i];
      }
      assert WildcardAt(t, i - 1);
    }
    if HasWildcard(t) {
      var i :| 0 <= i < |t| && WildcardAt(t, i);
      if i + 1 < |t| {
        assert w[i + 2] == t[i + 1];
      }
      assert WildcardAt(w, i + 1);
    }
  }

  /** A rendered scalar shows a wildcard exactly when its text has one of `\ _ % * ?`. */
  lemma ValueNodeWildcard(v: Value)
    ensures HasWildcard(ValueNode(v)) <==> Special(StrOf(v))
  {
    Bracketed('"', CleanValue(StrOf(v)), '"');
    CleanValueHasWildcard(StrOf(v));
  }

  /** Joining texts that do not end in a backslash with `, ` shows a wildcard exactly
      when one of the texts does. */
  lemma {:induction false} JoinWildcard(parts: seq<string>)
    requires forall i :: 0 <= i < |parts| ==> EndsClean(parts[i])
    ensures HasWildcard(Join(", ", parts)) <==> exists i :: 0 <= i < |parts| && HasWildcard(parts[i])
    decreases |parts|
  {
    if |parts| > 1 {
      var rest := Join(", ", parts[1..]);
      JoinWildcard(parts[1..]);
      assert forall i :: 1 <= i < |parts| ==> parts[1..][i - 1] == parts[i];
      var head := parts[0] + ", ";
      assert Join(", ", parts) == head + rest;
      EndsCleanConcat(parts[0], ", ");
      assert !WildcardAt(", ", 0) && !WildcardAt(", ", 1);
      assert !HasWildcard(", ");
      if HasWildcard(head + rest) {
        HasWildcardSplit(head, rest);
        if HasWildcard(head) {
          HasWildcardSplit(parts[0], ", ");
        }
      }
      if HasWildcard(parts[0]) {
        HasWildcardLeft(parts[0], ", ");
        HasWildcardLeft(head, rest);
      }
      if HasWildcard(rest) {
        HasWildcardRight(head, rest);
      }
    }
  }

  /** A rendered list shows a wildcard exactly when one of its items has one of
      `\ _ % * ?` in its text. */
  lemma ListWildcard(items: seq<Value>)
    ensures HasWildcard(ListText(items)) <==> exists i :: 0 <= i < |items| && Special(StrOf(items[i]))
  {
    var parts := ValueNodes(items);
    forall i | 0 <= i < |parts|
      ensures EndsClean(parts[i])
      ensures HasWildcard(parts[i]) <==> Special(StrOf(items[i]))
    {
      ValueNodeWildcard(items[i]);
    }
    JoinWildcard(parts);
    Bracketed('(', Join(", ", parts), ')');
  }

  /** A character of the separator appears in a join exactly when there are two parts or
      more, or when a part holds it. */
  lemma {:induction false} JoinHolds(parts: seq<string>, x: char)
    requires x in ", "
    ensures x in Join(", ", parts) <==> |parts| >= 2 || exists i :: 0 <= i < |parts| && x in parts[i]
    decreases |parts|
  {
    if |parts| > 1 {
      JoinHolds(parts[1..], x);
      assert forall i :: 1 <= i < |parts| ==> parts[1..][i - 1] == parts[i];
      var j := Join(", ", parts);
      assert j == parts[0] + ", " + Join(", ", parts[1..]);
      assert x in j;
    } else if |parts| == 1 {
      assert Join(", ", parts) == parts[0];
    }
  }

  /** The rendered list holds a comma exactly when it has two items or more, or one
      item's escaped text has a comma. */
  lemma ListComma(items: seq<Value>)
    ensures ',' in ListText(items) <==> |items| >= 2 || exists i :: 0 <= i < |items| && ',' in CleanValue(StrOf(items[i]))
  {
    var parts := ValueNodes(items);
    JoinHolds(parts, ',');
    forall i | 0 <= i < |items|
      ensures ',' in parts[i] <==> ',' in CleanValue(StrOf(items[i]))
    {
      assert parts[i] == Quoted(CleanValue(StrOf(items[i])));
    }
    assert ListText(items) == "(" + Join(", ", parts) + ")";
  }

  /** A string or integer never takes the IN shape: with `LENGTH` in the field it is the
      raw text in parentheses, otherwise a case-insensitive LIKE exactly when its text has
      one of `\ _ % * ?`, and an equality otherwise. */
  lemma MapItemScalar(field: string, v: Value)
    requires IsScalar(v)
    ensures MapItemNode(field, v) == Ok(
      if HasSubstring(field, "LENGTH") then "(" + field + " " + StrOf(v) + ")"
      else if Special(StrOf(v)) then "LOWER(" + field + ") LIKE " + Quoted(CleanValue(StrOf(v)))
      else field + " = " + Quoted(CleanValue(StrOf(v))))
  {
    ValueNodeWildcard(v);
    var g := ValueNode(v);
    assert GenerateValue(v) == Ok(g);
    assert g[0] == '"';
  }

  /** An integer compared with a field is written as its decimal digits in quotes. */
  lemma MapItemInteger(field: string, n: int)
    requires !HasSubstring(field, "LENGTH")
    ensures MapItemNode(field, Int(n)) == Ok(field + " = " + Quoted(IntToString(n)))
  {
    IntToStringRoundTrip(n);
    var t := IntToString(n);
    assert !Special(t) by {
      forall i | 0 <= i < |t|
        ensures t[i] != '\\' && t[i] != '_' && t[i] != '%' && t[i] != '*' && t[i] != '?'
      {
      }
    }
    CleanValueUntouched(t);
    MapItemScalar(field, Int(n));
  }

  /** A list of strings and integers takes the IN shape exactly when its rendering has a
      comma and none of its items has one of `\ _ % * ?`; failing that, a `LENGTH` field
      takes the raw list text in parentheses, and any other field one LIKE per item. */
  lemma {:induction false} MapItemList(field: string, items: seq<Value>)
    requires forall i :: 0 <= i < |items| ==> IsScalar(items[i])
    ensures MapItemNode(field, List(items)) == Ok(
      if ',' in ListText(items) && (forall i :: 0 <= i < |items| ==> !Special(StrOf(items[i]))) then field + " IN " + ListText(items)
      else if HasSubstring(field, "LENGTH") then "(" + field + " " + ReprOf(List(items)) + ")"
      else MapItemListNode(field, items))
  {
    ListWildcard(items);
    var t := ListText(items);
    assert t[0] == '(' && t[|t| - 1] == ')';
  }

  /** Two list items with none of `\ _ % * ?` take the IN shape, since the rendered list
      has a comma and no wildcard. */
  lemma TwoPlainItemsTakeIn(field: string, a: string, b: string)
    requires !Special(a) && !Special(b)
    ensures MapItemNode(field, List([Str(a), Str(b)])) == Ok(field + " IN " + ListText([Str(a), Str(b)]))
  {
    var items := [Str(a), Str(b)];
    ListComma(items);
    assert forall i :: 0 <= i < |items| ==> !Special(StrOf(items[i]));
    MapItemList(field, items);
  }
}

=== FILE: query.dfy ===
/** Query assembly (bq-sql.py lines 56-75 and 157-202, 257-277): the backend options,
    the SELECT list, and the query text for the first condition group of a rule. */
module Query {

  import opened Wrappers
  import opened Text
  import opened Tree
  import opened Generator
  import opened FtsGuard
  import opened Aggregation

  /** The options the query uses: the table, the configured select fields, and whether
      field selection was asked for. */
  datatype Config = Config(table: string, selectFields: seq<string>, selectionEnabled: bool)

  const DefaultTable: string := "<org>"

  /** The fixed time-range and source-type filter in front of the rule's condition. */
  const TimeAndTypeFilter: string := "Timestamp BETWEEN '<time_a>' AND '<time_b>' AND type IN ('windows','agent_os') AND "

  /** `__init__`: the table (a placeholder by default), the comma-separated `select`
      option when it is non-empty, and selection switched on by the mere presence of the
      `selection` key, whatever its value. */
  function ConfigFromOptions(options: map<string, string>): (c: Config)
    ensures "selection" in options <==> c.selectionEnabled
    ensures "table" !in options ==> c.table == DefaultTable
    ensures "table" in options ==> c.table == options["table"]
    ensures ("select" !in options || options["select"] == "") <==> c.selectFields == []
    ensures "select" in options && options["select"] != "" ==> Join(",", c.selectFields) == options["select"]
  {
    var table := if "table" in options then options["table"] else DefaultTable;
    if "select" in options && options["select"] != "" then
      JoinSplit(options["select"], ',');
      Config(table, Split(options["select"], ','), "selection" in options)
    else
      Config(table, [], "selection" in options)
  }

  /** What the field-mapping collaborator returns for a rule field: one backend field,
      several, or something else (which the backend rejects). */
  datatype Mapping = Single(field: string) | Multiple(fields: seq<string>) | Neither

  function Expanded(m: Mapping): seq<string> {
    match m
    case Single(f) => [f]
    case Multiple(fs) => fs
    case Neither => []
  }

  /** Reference: the rule fields mapped and flattened, in order. */
  function Mapped(fields: seq<string>, resolve: string -> Mapping): seq<string>
    decreases |fields|
  {
    if |fields| == 0 then [] else Mapped(fields[..|fields| - 1], resolve) + Expanded(resolve(fields[|fields| - 1]))
  }

  /** Some rule field maps to neither a string nor a list. */
  predicate BadMapping(fields: seq<string>, resolve: string -> Mapping) {
    exists i :: 0 <= i < |fields| && resolve(fields[i]).Neither?
  }

  /** The field list of `generate`: each rule field (when the rule has a `fields` key)
      through the mapping, then the configured select fields, and `*` alone if both are
      empty. A mapping that is neither a string nor a list is an error. */
  method ResolveFields(ruleFields: Option<seq<string>>, resolve: string -> Mapping, selectFields: seq<string>)
    returns (r: Result<seq<string>, Error>)
    ensures r.Err? <==> ruleFields.Some? && BadMapping(ruleFields.value, resolve)
    ensures r.Err? ==> r.error == FieldMappingType
    ensures r.Ok? ==> |r.value| > 0
    ensures r.Ok? ==> var given := (if ruleFields.Some? then Mapped(ruleFields.value, resolve) else []) + selectFields;
      r.value == if |given| == 0 then ["*"] else given
  {
    var fields: seq<string> := [];
    if ruleFields.Some? {
      var rf := ruleFields.value;
      var i := 0;
      while i < |rf|
        invariant 0 <= i <= |rf|
        invariant fields == Mapped(rf[..i], resolve)
        invariant forall j :: 0 <= j < i ==> !resolve(rf[j]).Neither?
      {
        var m := resolve(rf[i]);
        if m.Neither? {
          return Err(FieldMappingType);
        }
        assert rf[..i + 1][..i] == rf[..i];
        fields := fields + Expanded(m);
        i := i + 1;
      }
      assert rf[..i] == rf;
    }
    fields := fields + selectFields;
    if |fields| == 0 {
      fields := ["*"];
    }
    return Ok(fields);
  }

  /** The selection flag as `generate` leaves it: set by the option, or by a non-empty
      select list. */
  predicate SelectionEnabled(c: Config) {
    c.selectionEnabled || |c.selectFields| > 0
  }

  /** Python's `str.format` of the generated condition: `None` when nothing was generated. */
  function Shown(o: Option<string>): string {
    if o.Some? then o.value else "None"
  }

  /** One parsed condition group: the condition tree and the optional aggregation. */
  datatype Parsed = Parsed(search: Node, agg: Option<Agg>)

  /** `_generateQueryWithFields`: generate the condition, refuse a full-text search, then
      either filter the table by time and type, or select from the aggregation's derived
      table with its post-filter. */
  function QueryWithFields(c: Config, p: Parsed, fields: seq<string>): Result<string, Error> {
    var result :- Generate(p.search);
    var _ :- CheckFts(p.search);
    var select := Join(", ", fields);
    if p.agg.Some? then
      var pair :- Aggregate(p.agg, c.table, Shown(result));
      Ok("SELECT " + select + " FROM " + pair.0 + " WHERE " + pair.1)
    else
      Ok("SELECT " + select + " FROM " + c.table + " WHERE " + TimeAndTypeFilter + Shown(result))
  }

  /** `generate`: resolve the field list, then emit the query of the first condition group
      only (with the field list when selection is enabled, `*` otherwise), or `None` when
      there is no group. */
  method GenerateRule(c: Config, ruleFields: Option<seq<string>>, resolve: string -> Mapping, groups: seq<Parsed>)
    returns (r: Result<Option<string>, Error>)
    ensures |groups| == 0 ==> (r.Err? <==> ruleFields.Some? && BadMapping(ruleFields.value, resolve))
    ensures |groups| == 0 && r.Ok? ==> r.value.None?
    ensures ruleFields.Some? && BadMapping(ruleFields.value, resolve) ==> r == Err(FieldMappingType)
    ensures |groups| > 0 && !(ruleFields.Some? && BadMapping(ruleFields.value, resolve)) ==>
      r == (var q := QueryWithFields(c, groups[0], if SelectionEnabled(c) then FieldList(c, ruleFields, resolve) else ["*"]);
            if q.Err? then Err(q.error) else Ok(Some(q.value)))
  {
    var fields :- ResolveFields(ruleFields, resolve, c.selectFields);
    if |groups| == 0 {
      return Ok(None);
    }
    var query := QueryWithFields(c, groups[0], if SelectionEnabled(c) then fields else ["*"]);
    if query.Err? {
      return Err(query.error);
    }
    return Ok(Some(query.value));
  }

  /** The field list `ResolveFields` computes when no mapping is bad. */
  function FieldList(c: Config, ruleFields: Option<seq<string>>, resolve: string -> Mapping): seq<string> {
    var given := (if ruleFields.Some? then Mapped(ruleFields.value, resolve) else []) + c.selectFields;
    if |given| == 0 then ["*"] else given
  }

  // ---------------------------------------------------------------------------
  // Properties of the assembled query.
  // ---------------------------------------------------------------------------

  /** Whether the aggregation fails does not depend on the WHERE text. */
  lemma AggregateFailsAlike(agg: Option<Agg>, table: string, w1: string, w2: string)
    ensures Aggregate(agg, table, w1).Err? <==> Aggregate(agg, table, w2).Err?
  {
    if agg.Some? {
      AggregateOutcome(agg.value, table, w1);
      AggregateOutcome(agg.value, table, w2);
    }
  }

  /** A query fails exactly when the tree is not well formed, when the guard refuses it,
      or when its aggregation fails; a malformed tree is reported before the guard runs,
      and the guard before the aggregation. */
  lemma QueryOutcome(c: Config, p: Parsed, fields: seq<string>)
    ensures QueryWithFields(c, p, fields).Err? <==>
      !WellFormed(p.search) || CheckFts(p.search).Err? || Aggregate(p.agg, c.table, "").Err?
    ensures !WellFormed(p.search) ==> QueryWithFields(c, p, fields) == Err(ListItemType)
    ensures WellFormed(p.search) && CheckFts(p.search).Err? ==> QueryWithFields(c, p, fields) == Err(CheckFts(p.search).error)
  {
    GenerateOutcome(p.search);
    if Generate(p.search).Ok? {
      AggregateFailsAlike(p.agg, c.table, "", Shown(Generate(p.search).value));
    }
  }

  /** Without aggregation the query selects the fields from the table, filters by time and
      type, and ends with the generated condition, or with `None` when the tree
      constrains nothing. */
  lemma QueryPlain(c: Config, p: Parsed, fields: seq<string>)
    requires p.agg.None? && QueryWithFields(c, p, fields).Ok?
    ensures StartsWith(QueryWithFields(c, p, fields).value, "SELECT " + Join(", ", fields) + " FROM " + c.table + " WHERE " + TimeAndTypeFilter)
    ensures Vacuous(p.search) ==> EndsWith(QueryWithFields(c, p, fields).value, "None")
    ensures !Vacuous(p.search) ==> Generate(p.search).value.Some? && EndsWith(QueryWithFields(c, p, fields).value, Generate(p.search).value.value)
    ensures |QueryWithFields(c, p, fields).value| ==
      |"SELECT " + Join(", ", fields) + " FROM " + c.table + " WHERE " + TimeAndTypeFilter| + |Shown(Generate(p.search).value)|
  {
    GenerateOutcome(p.search);
    var head := "SELECT " + Join(", ", fields) + " FROM " + c.table + " WHERE " + TimeAndTypeFilter;
    var cond := Shown(Generate(p.search).value);
    var q := QueryWithFields(c, p, fields).value;
    assert q == head + cond;
    assert q[..|head|] == head;
    assert q[|q| - |cond|..] == cond;
  }

  /** With an aggregation the query selects the fields from the derived table of
      `Aggregate` (which filters the configured table by the generated condition and,
      with a group field, groups it), and ends with the post-filter `agg <op> <value>`. */
  lemma {:induction false} QueryAggregated(c: Config, p: Parsed, fields: seq<string>)
    requires p.agg.Some? && QueryWithFields(c, p, fields).Ok?
    ensures StartsWith(QueryWithFields(c, p, fields).value, "SELECT " + Join(", ", fields) + " FROM ")
    ensures StartsWith(QueryWithFields(c, p, fields).value,
      "SELECT " + Join(", ", fields) + " FROM " +
      ("(SELECT *," + Column(p.agg.value) + " AS agg FROM " + c.table + " WHERE " + Shown(Generate(p.search).value)))
    ensures StartsWith(QueryWithFields(c, p, fields).value,
      "SELECT " + Join(", ", fields) + " FROM " + Aggregate(p.agg, c.table, Shown(Generate(p.search).value)).value.0)
    ensures |QueryWithFields(c, p, fields).value| ==
      |"SELECT " + Join(", ", fields) + " FROM "| + |Aggregate(p.agg, c.table, Shown(Generate(p.search).value)).value.0| +
      |" WHERE agg " + p.agg.value.condOp + " " + p.agg.value.condition|
    ensures EndsWith(QueryWithFields(c, p, fields).value, " WHERE agg " + p.agg.value.condOp + " " + p.agg.value.condition)
  {
    var a := p.agg.value;
    var w := Shown(Generate(p.search).value);
    var pair := Aggregate(p.agg, c.table, w).value;
    var head := "SELECT " + Join(", ", fields) + " FROM ";
    var tail := " WHERE agg " + a.condOp + " " + a.condition;
    assert pair.1 == "agg " + a.condOp + " " + a.condition;
    assert " WHERE " + pair.1 == tail;
    assert QueryWithFields(c, p, fields).value == head + pair.0 + tail;
    Framed(head, pair.0, tail);
    Halves(head + pair.0, tail);
    AggregateShape(a, c.table, w);
    StartsWithInside(head, pair.0, tail, "(SELECT *," + Column(a) + " AS agg FROM " + c.table + " WHERE " + w);
  }

  /** The condition `(field = "n")` of a field compared with an integer in parentheses
      passes the full-text guard. */
  lemma IntegerCondition(field: string, n: int)
    requires !HasSubstring(field, "LENGTH")
    ensures Generate(Sub(MapItem(field, Int(n)))) == Ok(Some("(" + (field + " = " + Quoted(IntToString(n))) + ")"))
    ensures CheckFts(Sub(MapItem(field, Int(n)))) == Ok(())
  {
    MapItemInteger(field, n);
    CheckFtsOutcome(Sub(MapItem(field, Int(n))));
  }

  /** A field compared with an integer, alone in the rule's parentheses, as in
      `EventID: 4624`. */
  lemma IntegerEqualityQuery(c: Config, fields: seq<string>, field: string, n: int)
    requires !HasSubstring(field, "LENGTH")
    ensures var cond := field + " = " + Quoted(IntToString(n));
      QueryWithFields(c, Parsed(Sub(MapItem(field, Int(n))), None), fields) ==
      Ok("SELECT " + Join(", ", fields) + " FROM " + c.table + " WHERE " + TimeAndTypeFilter + ("(" + cond + ")"))
  {
    IntegerCondition(field, n);
  }

}

=== FILE: text.dfy ===
/** Python string helpers the backend relies on: `sep.join(parts)`, `s.split(c)`,
    `str(int)` and `repr(str)` / `str(list)`. */
module Text {

  import opened Wrappers

  /** Python's `sep.join(parts)`. */
  function Join(sep: string, parts: seq<string>): string
  {
    if |parts| == 0 then ""
    else if |parts| == 1 then parts[0]
    else parts[0] + sep + Join(sep, parts[1..])
  }

  /** Joining one more part appends the separator and that part. */
  lemma {:induction false} JoinAppend(sep: string, parts: seq<string>, last: string)
    requires |parts| > 0
    ensures Join(sep, parts + [last]) == Join(sep, parts) + sep + last
    decreases |parts|
  {
    if |parts| == 1 {
      assert parts + [last] == [parts[0], last];
    } else {
      assert (parts + [last])[1..] == parts[1..] + [last];
      JoinAppend(sep, parts[1..], last);
    }
  }

  predicate StartsWith(s: string, p: string) {
    |p| <= |s| && s[..|p|] == p
  }

  predicate EndsWith(s: string, p: string) {
    |p| <= |s| && s[|s| - |p|..] == p
  }

  /** A concatenation starts with its first piece and ends with its last. */
  lemma Framed(head: string, mid: string, tail: string)
    ensures StartsWith(head + mid + tail, head)
    ensures EndsWith(head + mid + tail, tail)
  {
    var s := head + mid + tail;
    assert s[..|head|] == head;
    assert s[|s| - |tail|..] == tail;
  }

  /** A concatenation starts with its first part and ends with its second. */
  lemma Halves(a: string, b: string)
    ensures StartsWith(a + b, a)
    ensures EndsWith(a + b, b)
  {
    assert (a + b)[..|a|] == a;
    assert (a + b)[|a|..] == b;
  }

  /** A prefix of the middle part, behind the same head, is a prefix of the whole. */
  lemma StartsWithInside(head: string, mid: string, tail: string, p: string)
    requires StartsWith(mid, p)
    ensures StartsWith(head + mid + tail, head + p)
  {
    var s := head + mid + tail;
    assert s[..|head| + |p|] == head + mid[..|p|];
  }

  /** A join whose first part is non-empty is non-empty. */
  lemma JoinNonEmpty(sep: string, parts: seq<string>)
    requires |parts| > 0 && |parts[0]| > 0
    ensures |Join(sep, parts)| > 0
  {
  }

  /** Python's `s.split(c)` for a one-character separator. */
  function Split(s: string, c: char): (parts: seq<string>)
    ensures |parts| >= 1
    decreases |s|
  {
    if |s| == 0 then [""]
    else if s[0] == c then [""] + Split(s[1..], c)
    else
      var rest := Split(s[1..], c);
      [[s[0]] + rest[0]] + rest[1..]
  }

  /** No piece produced by `Split` contains the separator. */
  lemma {:induction false} SplitPiecesAreSeparatorFree(s: string, c: char)
    ensures forall i :: 0 <= i < |Split(s, c)| ==> c !in Split(s, c)[i]
    decreases |s|
  {
    if |s| > 0 {
      SplitPiecesAreSeparatorFree(s[1..], c);
    }
  }

  /** Joining the pieces of a split with the separator gives back the string. */
  lemma {:induction false} JoinSplit(s: string, c: char)
    ensures Join([c], Split(s, c)) == s
    decreases |s|
  {
    if |s| > 0 {
      var rest := Split(s[1..], c);
      JoinSplit(s[1..], c);
      if s[0] == c {
        assert Join([c], [""] + rest) == "" + [c] + Join([c], rest);
      } else {
        var parts := [[s[0]] + rest[0]] + rest[1..];
        if |rest| == 1 {
          assert parts == [[s[0]] + rest[0]];
        } else {
          assert parts[1..] == rest[1..];
          assert Join([c], rest) == rest[0] + [c] + Join([c], rest[1..]);
        }
      }
    }
  }

  /** Splitting a join of separator-free pieces gives back the pieces. */
  lemma {:induction false} SplitJoin(parts: seq<string>, c: char)
    requires |parts| >= 1
    requires forall i :: 0 <= i < |parts| ==> c !in parts[i]
    ensures Split(Join([c], parts), c) == parts
    decreases |parts|, |parts[0]|
  {
    if |parts[0]| == 0 {
      if |parts| > 1 {
        assert Join([c], parts) == [c] + Join([c], parts[1..]);
        assert (Join([c], parts))[1..] == Join([c], parts[1..]);
        SplitJoin(parts[1..], c);
      }
    } else {
      var head := parts[0][1..];
      var parts' := [head] + parts[1..];
      assert parts'[1..] == parts[1..];
      assert c !in head by {
        forall i | 0 <= i < |head| ensures head[i] != c {
          assert head[i] == parts[0][i + 1];
        }
      }
      SplitJoin(parts', c);
      var j := Join([c], parts);
      if |parts| == 1 {
        assert j == parts[0];
      } else {
        assert j == parts[0] + [c] + Join([c], parts[1..]);
        assert Join([c], parts') == head + [c] + Join([c], parts[1..]);
      }
      assert j[0] == parts[0][0];
      assert j[1..] == Join([c], parts');
      assert [parts[0][0]] + head == parts[0];
    }
  }

  /** Python's `p in s` for strings: `p` occurs somewhere in `s`. */
  predicate HasSubstring(s: string, p: string)
    decreases |s|
  {
    |p| <= |s| && (s[..|p|] == p || HasSubstring(s[1..], p))
  }

  /** `p` occurs in `s` starting at position `i`. */
  predicate OccursAt(s: string, p: string, i: nat) {
    i + |p| <= |s| && s[i..i + |p|] == p
  }

  /** An occurrence after the first character is an occurrence in the rest, and back. */
  lemma OccursShift(s: string, p: string, j: nat)
    requires |s| > 0
    ensures OccursAt(s, p, j + 1) <==> OccursAt(s[1..], p, j)
  {
    if j + 1 + |p| <= |s| {
      assert s[j + 1..j + 1 + |p|] == s[1..][j..j + |p|];
    }
  }

  /** `HasSubstring` holds exactly when `p` occurs at some position of `s`. */
  lemma {:induction false} HasSubstringIff(s: string, p: string)
    ensures HasSubstring(s, p) <==> exists i: nat :: OccursAt(s, p, i)
    decreases |s|
  {
    if |p| <= |s| {
      assert s[0..0 + |p|] == s[..|p|];
      assert s[..|p|] == p ==> OccursAt(s, p, 0);
      if |s| > 0 {
        HasSubstringIff(s[1..], p);
        if exists i: nat :: OccursAt(s, p, i) {
          var i: nat :| OccursAt(s, p, i);
          if i > 0 {
            OccursShift(s, p, i - 1);
          }
        }
        if HasSubstring(s[1..], p) {
          var j: nat :| OccursAt(s[1..], p, j);
          OccursShift(s, p, j);
        }
      }
    }
  }

  /** The decimal digit for `d`. */
  function Digit(d: nat): char
    requires d < 10
  {
    "0123456789"[d]
  }

  /** The value of a decimal digit character (0 for any other character). */
  function DigitValue(c: char): nat
  {
    if '0' <= c <= '9' then (c as int - '0' as int) else 0
  }

  /** Decimal text of a natural number, most significant digit first. */
  function NatToString(n: nat): string
    decreases n
  {
    if n < 10 then [Digit(n)] else NatToString(n / 10) + [Digit(n % 10)]
  }

  /** Python's `str(n)` for an `int`: a minus sign for negative numbers, then the digits. */
  function IntToString(n: int): string
  {
    if n < 0 then "-" + NatToString(-n) else NatToString(n)
  }

  /** Reads decimal digits back into a number. */
  function ParseNat(s: string): nat
    decreases |s|
  {
    if |s| == 0 then 0 else ParseNat(s[..|s| - 1]) * 10 + DigitValue(s[|s| - 1])
  }

  /** Reads an optional minus sign and decimal digits back into a number. */
  function ParseInt(s: string): int
  {
    if |s| > 0 && s[0] == '-' then -(ParseNat(s[1..]) as int) else ParseNat(s)
  }

  predicate IsDigit(c: char) {
    '0' <= c <= '9'
  }

  /** `NatToString` writes only digits, never with a superfluous leading zero, and reads back. */
  lemma NatToStringRoundTrip(n: nat)
    ensures |NatToString(n)| > 0
    ensures forall i :: 0 <= i < |NatToString(n)| ==> IsDigit(NatToString(n)[i])
    ensures |NatToString(n)| > 1 ==> NatToString(n)[0] != '0'
    ensures n > 0 ==> NatToString(n)[0] != '0'
    ensures ParseNat(NatToString(n)) == n
  {
    NatToStringDigits(n);
    NatToStringParses(n);
  }

  /** The last digit of `n` comes after the digits of `n / 10`. */
  lemma NatToStringLast(n: nat)
    requires n >= 10
    ensures NatToString(n) == NatToString(n / 10) + [Digit(n % 10)]
    ensures NatToString(n)[..|NatToString(n)| - 1] == NatToString(n / 10)
    ensures NatToString(n)[|NatToString(n)| - 1] == Digit(n % 10)
  {
  }

  lemma {:induction false} NatToStringDigits(n: nat)
    ensures |NatToString(n)| > 0
    ensures forall i :: 0 <= i < |NatToString(n)| ==> IsDigit(NatToString(n)[i])
    ensures |NatToString(n)| > 1 ==> NatToString(n)[0] != '0'
    ensures n > 0 ==> NatToString(n)[0] != '0'
    decreases n
  {
    if n >= 10 {
      NatToStringDigits(n / 10);
      NatToStringLast(n);
    } else if n > 0 {
      assert NatToString(n)[0] == "0123456789"[n];
    }
  }

  lemma {:induction false} NatToStringParses(n: nat)
    ensures ParseNat(NatToString(n)) == n
    decreases n
  {
    if n >= 10 {
      NatToStringParses(n / 10);
      NatToStringLast(n);
    }
  }

  /** `str(n)` is a minus sign (for negative `n` only) followed by digits with no
      superfluous leading zero, and it reads back as `n`. */
  lemma IntToStringRoundTrip(n: int)
    ensures ParseInt(IntToString(n)) == n
    ensures |IntToString(n)| > 0
    ensures n < 0 <==> IntToString(n)[0] == '-'
    ensures n >= 0 && |IntToString(n)| > 1 ==> IntToString(n)[0] != '0'
    ensures n < 0 ==> |IntToString(n)| > 1 && IntToString(n)[1] != '0'
    ensures forall i :: 0 <= i < |IntToString(n)| ==> IsDigit(IntToString(n)[i]) || (i == 0 && n < 0 && IntToString(n)[i] == '-')
  {
    if n < 0 {
      NatToStringRoundTrip(-n);
      var digits := NatToString(-n);
      assert IntToString(n) == "-" + digits;
      assert IntToString(n)[1..] == digits;
      assert IntToString(n)[1] == digits[0];
    } else {
      NatToStringRoundTrip(n);
    }
  }

  // ---------------------------------------------------------------------------
  // `repr(s)` for a string, as `str(list)` writes the items of a list.
  // ---------------------------------------------------------------------------

  /** The quote `repr` picks: a double quote only when the text has a single quote and no double quote. */
  function ReprQuote(s: string): char {
    if '\'' in s && '"' !in s then '"' else '\''
  }

  /** Lower-case hexadecimal digit. */
  function HexDigit(n: nat): char
    requires n < 16
  {
    "0123456789abcdef"[n]
  }

  /** The value of a lower-case hexadecimal digit. */
  function HexValue(c: char): (n: nat)
    ensures n < 16
  {
    if '0' <= c <= '9' then c as int - '0' as int
    else if 'a' <= c <= 'f' then c as int - 'a' as int + 10
    else 0
  }

  predicate IsHexDigit(c: char) {
    ('0' <= c <= '9') || ('a' <= c <= 'f')
  }

  /** How `repr` writes one character inside quotes `q`: backslash and the quote get a
      backslash, tab, newline and carriage return their letter escapes, other control
      characters (and DEL) a `\xhh` escape; everything else stands for itself. */
  function ReprChar(c: char, q: char): string {
    if c == '\\' then "\\\\"
    else if c == q then ['\\', q]
    else if c == '\t' then "\\t"
    else if c == '\n' then "\\n"
    else if c == '\r' then "\\r"
    else if c < ' ' || c == '\U{7F}' then "\\x" + [HexDigit(c as int / 16), HexDigit(c as int % 16)]
    else [c]
  }

  function ReprBody(s: string, q: char): string
    decreases |s|
  {
    if |s| == 0 then "" else ReprChar(s[0], q) + ReprBody(s[1..], q)
  }

  /** Python's `repr` of a string. */
  function Repr(s: string): string {
    [ReprQuote(s)] + ReprBody(s, ReprQuote(s)) + [ReprQuote(s)]
  }

  /** Reads the inside of a quoted literal back; `None` for a stray quote or a malformed escape. */
  function UnreprBody(t: string, q: char): Option<string>
    decreases |t|
  {
    if |t| == 0 then Some("")
    else if t[0] == q then None
    else if t[0] != '\\' then Prepend(t[0], UnreprBody(t[1..], q))
    else if |t| < 2 then None
    else if t[1] == '\\' || t[1] == q then Prepend(t[1], UnreprBody(t[2..], q))
    else if t[1] == 't' then Prepend('\t', UnreprBody(t[2..], q))
    else if t[1] == 'n' then Prepend('\n', UnreprBody(t[2..], q))
    else if t[1] == 'r' then Prepend('\r', UnreprBody(t[2..], q))
    else if t[1] == 'x' && |t| >= 4 && IsHexDigit(t[2]) && IsHexDigit(t[3]) then
      Prepend((HexValue(t[2]) * 16 + HexValue(t[3])) as char, UnreprBody(t[4..], q))
    else None
  }

  function Prepend(c: char, o: Option<string>): Option<string> {
    if o.Some? then Some([c] + o.value) else None
  }

  /** Reads a quoted literal back. */
  function Unrepr(t: string): Option<string> {
    if |t| >= 2 && (t[0] == '\'' || t[0] == '"') && t[|t| - 1] == t[0] then UnreprBody(t[1..|t| - 1], t[0]) else None
  }

  lemma HexRoundTrip(n: nat)
    requires n < 16
    ensures IsHexDigit(HexDigit(n)) && HexValue(HexDigit(n)) == n
  {
  }

  /** One written character reads back as itself, whatever follows it. */
  lemma {:induction false} ReprCharRoundTrip(c: char, q: char, rest: string)
    requires q == '\'' || q == '"'
    ensures UnreprBody(ReprChar(c, q) + rest, q) == Prepend(c, UnreprBody(rest, q))
  {
    if c == '\\' || c == q || c == '\t' || c == '\n' || c == '\r' {
      ReprShortEscapeRoundTrip(c, q, rest);
    } else if c < ' ' || c == '\U{7F}' {
      ReprHexEscapeRoundTrip(c, q, rest);
    } else {
      var t := ReprChar(c, q) + rest;
      assert t[1..] == rest;
    }
  }

  lemma ReprShortEscapeRoundTrip(c: char, q: char, rest: string)
    requires q == '\'' || q == '"'
    requires c == '\\' || c == q || c == '\t' || c == '\n' || c == '\r'
    ensures UnreprBody(ReprChar(c, q) + rest, q) == Prepend(c, UnreprBody(rest, q))
  {
    var t := ReprChar(c, q) + rest;
    assert t[0] == '\\';
    assert t[2..] == rest;
  }

  lemma ReprHexEscapeRoundTrip(c: char, q: char, rest: string)
    requires q == '\'' || q == '"'
    requires c != '\\' && c != q && c != '\t' && c != '\n' && c != '\r'
    requires c < ' ' || c == '\U{7F}'
    ensures UnreprBody(ReprChar(c, q) + rest, q) == Prepend(c, UnreprBody(rest, q))
  {
    var t := ReprChar(c, q) + rest;
    var hi := c as int / 16;
    var lo := c as int % 16;
    HexRoundTrip(hi);
    HexRoundTrip(lo);
    assert t == "\\x" + [HexDigit(hi), HexDigit(lo)] + rest;
    assert t[0] == '\\' && t[1] == 'x';
    assert t[2] == HexDigit(hi) && t[3] == HexDigit(lo);
    assert t[4..] == rest;
    assert (hi * 16 + lo) as char == c;
  }

  lemma {:induction false} ReprBodyRoundTrip(s: string, q: char)
    requires q == '\'' || q == '"'
    ensures UnreprBody(ReprBody(s, q), q) == Some(s)
    decreases |s|
  {
    if |s| > 0 {
      var r := ReprBody(s[1..], q);
      assert ReprBody(s, q) == ReprChar(s[0], q) + r;
      ReprCharRoundTrip(s[0], q, r);
      ReprBodyRoundTrip(s[1..], q);
      assert [s[0]] + s[1..] == s;
    }
  }

  /** `repr` of a string is a quoted literal that reads back as the string. */
  lemma ReprRoundTrip(s: string)
    ensures |Repr(s)| >= 2
    ensures Repr(s)[0] == Repr(s)[|Repr(s)| - 1] == ReprQuote(s)
    ensures Unrepr(Repr(s)) == Some(s)
  {
    var r := Repr(s);
    var q := ReprQuote(s);
    assert r[1..|r| - 1] == ReprBody(s, q);
    ReprBodyRoundTrip(s, q);
  }
}

=== FILE: tree.dfy ===
/** The parsed condition tree the backend walks, the leaf values it renders, and the
    errors it raises. */
module Tree {

  import opened Text

  /** A rule value: a string, an integer, or a list (whose items should be strings or
      integers; a nested list is the case the list renderer rejects). */
  datatype Value = Str(s: string) | Int(n: int) | List(items: seq<Value>)

  /** The condition tree: AND/OR over any number of children, NOT and a parenthesised
      subexpression over one child, a field/value pair, the null and not-null tests, and
      a value with no field (which only a full-text search would need). */
  datatype Node =
    | And(children: seq<Node>)
    | Or(children: seq<Node>)
    | Not(child: Node)
    | Sub(child: Node)
    | MapItem(field: string, value: Value)
    | NullValue(nullField: string)
    | NotNullValue(notNullField: string)
    | Bare(bare: Value)

  /** The exceptions the backend raises, one constructor per message; the two raises of
      the search-logic error share one. */
  datatype Error =
    | ListItemType                          // a list value holds something other than a str or int
    | AggregationFieldMissing(func: string) // MAX/MIN/SUM/AVG without a field
    | AggregationNotImplemented(func: string)
    | FullTextSearch                        // a value with no field is searched for
    | SearchLogic                           // the guard met a node it does not expect
    | FieldMappingType                      // a field mapping returned neither str nor list

  predicate IsScalar(v: Value) {
    v.Str? || v.Int?
  }

  /** A value the list renderer accepts: a scalar, or a list of scalars. */
  predicate RenderableValue(v: Value) {
    v.List? ==> forall i :: 0 <= i < |v.items| ==> IsScalar(v.items[i])
  }

  /** Python's `str(v)`. */
  function StrOf(v: Value): string {
    match v
    case Str(s) => s
    case Int(n) => IntToString(n)
    case List(_) => ReprOf(v)
  }

  /** Python's `repr(v)` (which `str` of a list uses for the items). */
  function ReprOf(v: Value): string
    decreases v
  {
    match v
    case Str(s) => Repr(s)
    case Int(n) => IntToString(n)
    case List(items) => "[" + Join(", ", ReprAll(items)) + "]"
  }

  function ReprAll(items: seq<Value>): (r: seq<string>)
    ensures |r| == |items|
    decreases items
  {
    if |items| == 0 then [] else [ReprOf(items[0])] + ReprAll(items[1..])
  }
}

=== FILE: wrappers.dfy ===
/** How the model writes Python's `None` and its exceptions: `Option` is a value that
    may be `None`, and `Result` is a value or the exception raised instead. `Result`
    works with `:-`, so an exception propagates the way an uncaught raise does. */
module Wrappers {

  datatype Option<+T> = None | Some(value: T)

  datatype Result<+T, +E> = Ok(value: T) | Err(error: E) {

    predicate IsFailure() {
      Err?
    }

    function PropagateFailure<U>(): Result<U, E>
      requires Err?
    {
      Err(error)
    }

    function Extract(): T
      requires Ok?
    {
      value
    }
  }
}
